=== FILE: README.md ===
# Rule-based expert system, modelled in Dafny

The system is a small inference engine. A rule base is read from lines of the form
`R<digits>: IF <premises> THEN <actions>`. Each line becomes a `Rule`: a number and
two comma-separated lists of facts. Facts are strings, compared only for equality.
An `ExpertSystem` object holds the rule base, a fact base and `rule_order`, the
trace of rule numbers applied so far. The trace persists across calls. Two
engines work on this object:

- **Forward chaining** repeats one step until nothing changes. Each step scans the
  rules in store order and fires the first rule whose number is not yet in the
  trace and whose premises are all known. Firing appends the rule's actions to the
  fact base and to the returned list. Duplicates are kept.
- **Backward chaining** keeps a last-in-first-out stack of subgoals, starting with
  the goal. For each popped subgoal it looks at every rule, in store order, that
  has the subgoal among its actions and all its premises already known. Each such
  rule pushes its premises and records its number. If at least one such rule
  exists, the subgoal then becomes a fact if it is new; otherwise it is simply
  dropped. At the end the recorded numbers are reversed and appended to the
  trace. This loop need not stop.

The Dafny modules follow that structure:

- `Wrappers`: `Option` and `Result`.
- `Rules`: facts and rules, and the store-order scan `Select` that both engines use.
- `RuleParser`: a hand-written matcher for the regular expression
  `R(\d+): IF (.*) THEN (.*)` under `re.match`. The match is anchored at the start
  only. `.` stops at a newline. The premise group is greedy, so it runs to the last
  ` THEN ` of the line. The module also has comma splitting (`str.split(",")`),
  decimal conversion, and a formatter used for the round-trip property.
- `ExpertSystem`: the `Engine` record (rule base, fact base, trace), the
  all-or-nothing rule-base parse, and the constructor.
- `Forward`: the loop is a terminating recursive function, `Saturate`. Its measure
  is the number of rule numbers not yet in the trace. An independent reference,
  `ValidRun`, describes any sequence of firings that follows the
  first-fireable-rule policy. Both directions are proved: the loop is such a run,
  and every such run that ends where nothing can fire is the loop.
- `Backward`: a functional reference (`Pop`, `Run`, `BackwardSpec`) bounded by a
  number of pops (`fuel`), plus the loop written as methods over an explicit stack
  and proved equal to the reference.
- `Scenarios`: worked cases over symbolic fact names.

The `Engine` is a value. Each operation returns the new engine instead of
mutating the object, so `rule_order` is an explicit input and output.

## Model

| member | source | states |
|---|---|---|
| RuleParser.ParseRule | main.py:18-30 | A rejected line fails with `InvalidRuleFormat` carrying that line. A parsed rule keeps the line as its text and has at least one premise and at least one action. |
| RuleParser.ParseRuleSound | main.py:18-30 | A line that parses matches the pattern with some groups `d`, `p`, `a`. The rule number is the decimal value of `d`. The lists are the comma splits of `p` and `a`, and joining them with `","` gives back `p` and `a`. |
| RuleParser.ParseRuleComplete | main.py:18-30 | Every line that matches the pattern with groups `d`, `p`, `a` parses to exactly number `d`, premises `split(p)` and actions `split(a)`. |
| RuleParser.ParseRuleRejects | main.py:18-20 | `Rule(line)` raises `ValueError` if and only if no choice of groups matches the pattern. |
| RuleParser.MatchComplete | main.py:18 | The groups of a match are unique. Whenever a choice of groups satisfies the pattern, `Match` returns exactly those groups. |
| RuleParser.NotStartingWithR | main.py:18-20 | A line that is empty or does not start with `R` is rejected. |
| RuleParser.NoRuleNumber | main.py:18-20 | A line whose `R` is not followed by a digit is rejected. |
| RuleParser.NoThenRejected | main.py:18-20 | A line with no ` THEN ` anywhere is rejected. |
| RuleParser.MatchThen | main.py:18 | Every line the pattern matches contains ` THEN `. |
| RuleParser.ParseFormat | main.py:18-30 | Writing a rule as a line and parsing it gives back its number, premises and actions. This holds when no fact holds a comma or newline and ` THEN ` followed by the joined actions holds no second ` THEN ` (so no action holds ` THEN ` and the first action does not start with `THEN `). |
| RuleParser.DigitRun | main.py:18 | The greedy `\d+` takes the longest run of leading digits. It stops at the end or at a non-digit. |
| RuleParser.FirstLine | main.py:18 | `(.*)` cannot cross a newline. The text it may cover is a prefix of the input, contains no newline, and is followed by a newline or the end. |
| RuleParser.LastThen | main.py:18 | The greedy premise group stops at the last occurrence of ` THEN `. After that position there is no other occurrence; with no occurrence at all it returns none. |
| RuleParser.DecimalRoundTrip | main.py:26 | `int` reads back the decimal spelling of every natural number. |
| RuleParser.LeadingZero | main.py:26 | A leading zero does not change the rule number. |
| RuleParser.Split | main.py:28-30 | `split(",")` returns at least one piece, and no piece contains a comma. |
| RuleParser.JoinSplit | main.py:28-30 | Joining the pieces of a split with `","` gives back the text, so no character is trimmed or lost. |
| RuleParser.SplitJoin | main.py:28-30 | Splitting a join of comma-free pieces gives back the pieces. |
| ExpertSystem.ParseRuleBase | main.py:44-48 | The rule base parses if and only if every line parses. It then holds one rule per line, in line order. Otherwise the error is that of some line, and every line before it parses. |
| ExpertSystem.FirstBadLine | main.py:45-47 | The error of a rule base is the error of its first bad line, whatever follows it. No partial rule list is produced. |
| ExpertSystem.NewEngine | main.py:33-39 | A new system has the parsed rule base, the given facts and an empty trace. It exists if and only if every line parses. |
| Rules.SelectSpec | main.py:70-72 | The scan collects exactly the indices of the rules that pass the test. Every collected rule passes, and every passing rule is collected. |
| Rules.SelectIncreasing | main.py:70-72 | The scan collects indices in strictly increasing (store) order. |
| Rules.Reverse | main.py:126 | `reverse()` puts element `i` at position `len - 1 - i`. |
| Forward.FirstFireable | main.py:67-78 | The loop stops exactly when no rule has an unrecorded number and all premises known. Otherwise the fired rule can fire and no rule before it in store order can. |
| Forward.FirstFireableUnique | main.py:70-78 | The rule that fires is determined: any rule that is first fireable is the one chosen. |
| Forward.UnfiredShrinks | main.py:71-79 | Recording a fired rule's number removes exactly that number from the set of unrecorded numbers. This is why the loop ends. |
| Forward.Saturate | main.py:64-84 | The loop only appends to the fact base and the trace. The returned list is the initial copy followed by exactly what the fact base gained. At exit no rule can fire. |
| Forward.SaturateFresh | main.py:66-79 | The numbers the loop records are distinct and were not in the trace before. Each is the number of a rule that had not been recorded. There are at most as many as there were unrecorded numbers. |
| Forward.ForwardChaining | main.py:60-84 | `forward_chaining` returns a list equal to the final fact base, which extends the initial one. The trace gains distinct, previously absent numbers, at most one per unrecorded number. At the end no rule can fire. |
| Forward.SaturateIsRun | main.py:66-81 | The loop follows a run of the first-fireable policy. The final fact base is the initial one followed by the actions of the fired rules in firing order, and the trace gains their numbers in that order. |
| Forward.RunIsSaturate | main.py:66-81 | Every run of the policy that ends where no rule can fire is what the loop computes. |
| Forward.ForwardChainingIsRun | main.py:60-84 | The result of `forward_chaining` is the end state of some run of the policy from the initial state. |
| Forward.RunIsForwardChaining | main.py:60-84 | Every run of the policy from the initial state that ends where nothing can fire ends where `forward_chaining` ends. |
| Forward.ForwardChainingIdempotent | main.py:66-75 | A second call without resetting the trace fires nothing. It returns the fact base unchanged and leaves the object unchanged. |
| Forward.ForwardChainingFiresOnce | main.py:71-79 | Starting from a trace without repeats, the trace never repeats a number. |
| Backward.Pop | main.py:102-123 | One iteration keeps everything below the popped subgoal. It only appends to the recorded numbers, and it adds at most one fact. |
| Backward.Run | main.py:101-123 | When the loop ends, the stack is empty, and the fact base and the recorded list extend the ones it started from. |
| Backward.BackwardSpec | main.py:96-129 | When `backward_chaining` returns, the rule base is unchanged, the trace extends the old trace, and the fact base extends the old fact base. |
| Backward.RunMoreFuel | main.py:101 | Allowing more pops never changes a result that fewer pops already reached. |
| Backward.BackwardFuelIrrelevant | main.py:96-129 | The result of `backward_chaining` does not depend on the pop bound, once the bound lets the loop end. |
| Backward.Applicable | main.py:104-109 | The scan for a subgoal collects the rules, in store order, that have the subgoal among their actions and all premises known. |
| Backward.PushPremises | main.py:115-118 | For each applicable rule in turn, its premises are pushed and its number is recorded. |
| Backward.PopSubgoal | main.py:102-123 | One iteration of the source loop computes the reference step `Pop`. |
| Backward.BackwardChaining | main.py:96-129 | The loop over an explicit stack, with at most `fuel` pops, returns what the reference `BackwardSpec` returns. |
| Backward.PushedKnown | main.py:108-117 | Every premise pushed for a subgoal is already a known fact. |
| Backward.FirstPop | main.py:102-123 | After the goal is popped, the fact base is `AfterGoal`: the old facts, followed by the goal when it was new and some rule concludes it from known facts. Every stacked subgoal is known, and every recorded number belongs to a rule whose premises and one of whose actions are known. |
| Backward.RunKeepsSettled | main.py:101-123 | Every later pop keeps that state: the fact base, the stacked subgoals and the recorded numbers stay as the first pop left them. |
| Backward.BackwardFacts | main.py:108-123 | When `backward_chaining(goal)` returns, the fact base is either unchanged or the old one followed by `goal`. `goal` is added exactly when it was absent and some rule with `goal` among its actions had all its premises known. |
| Backward.BackwardTrace | main.py:107-118 | When `backward_chaining` returns, the trace is the old trace followed by numbers of rules whose premises, and one of whose actions, are in the final fact base. |
| Backward.BackwardTraceEnds | main.py:115-127 | Because of the reversal, the trace ends with the numbers of the rules that conclude the goal itself, in reverse store order. |
| Backward.SelfLoopDiverges | main.py:101-118 | With the rule `IF a THEN a`, facts `[a]` and goal `a`, no bound on the number of pops lets the loop end. |
| Scenarios.ParseGreedyThen | main.py:18-30 | A line with two ` THEN ` gets a premise group that runs to the second one. |
| Scenarios.SplitUntrimmed | main.py:28 | `"x, y".split(",")` keeps the space: `["x", " y"]`. |
| Scenarios.RuleBaseAborts | main.py:45-48 | A good line followed by a bad one gives the bad line's error and no rules. |
| Scenarios.ForwardChain | main.py:60-84 | For `IF p THEN c` and `IF c THEN r` from `[p]`, the engine fires 1 then 2, the facts become `[p, c, r]`, and the trace becomes `[1, 2]`. |
| Scenarios.SharedNumberBlocks | main.py:71-79 | Of two rules that share number 1 and a premise, only the first fires. |
| Scenarios.BackwardChainLast | main.py:96-129 | For the same chain from `[p]`, the goal `r` records nothing and adds nothing, because `c` is not known. |
| Scenarios.BackwardChainFirst | main.py:96-129 | For the same chain, the goal `c` records rule 1 and adds `c` after `p`. |

Two consequences of the code worth stating:

- Backward chaining applies only rules whose premises are already known. With `R1: IF p THEN c`, `R2: IF c THEN r` and facts `[p]`, the goal `r` records and adds nothing (`Scenarios.BackwardChainLast`). `r` is reached only once `c` is already known, for example after forward chaining or after a backward call for `c` on the same fact list (`Scenarios.BackwardChainFirst`).
- `rule_order` persists across calls (main.py:39, 71, 127), so the model takes the trace as input and returns it.

## Left out

- Reading the rule file (main.py:43-45) and `line.strip()` (main.py:46) are left out. `ParseRuleBase` takes the lines already stripped.
- The `__main__` driver and all printing (main.py:141-174) are not part of this model. That includes the list aliasing through which the driver's "reset" of the facts rebinds the list that forward chaining mutated. The engine here is a value, so object identity does not arise.
- `\d` is modelled as the ASCII digits `0`-`9` only. Python's `re` also accepts other Unicode decimal digits.
- The `ValueError` message text ("Invalid rule format: ...") is modelled as an error value carrying the offending line.
- Backward.BackwardChaining: runs at most `fuel` pops and returns `OutOfFuel` when the stack is still not empty, because the source loop need not terminate. `SelfLoopDiverges` shows a case where no bound suffices. `BackwardFuelIrrelevant` shows the result does not depend on the bound once the loop ends.
- Backward.BackwardTrace: states that each recorded rule has all its premises and one of its actions in the final fact base. It does not name the particular subgoal popped when the rule was recorded. The stronger form needs a per-pop history the model does not keep.
- RuleParser.ParseRuleRejects: treats Python integers as unbounded. On interpreters that cap integer-string conversion (4300 digits by default since CPython 3.11), `int` at main.py:26 also raises `ValueError` for a longer digit group; the model parses such a line.

=== FILE: backward.dfy ===
/** Backward chaining: a last-in-first-out stack of subgoals. Each popped subgoal
    looks for every rule, in store order, that has it among its actions and whose
    premises are all already known; their premises are pushed and their numbers
    recorded, and the subgoal becomes a fact if it is new. The loop need not stop,
    so it is run with a bound on the number of pops. */
module Backward {
  import opened Wrappers
  import opened Rules
  import opened ExpertSystem

  /** The loop's state: the subgoal stack (top at the end), the fact base and the
      rule numbers recorded so far, in discovery order. */
  datatype Search = Search(subgoals: seq<Fact>, factBase: seq<Fact>, found: seq<nat>)

  /** One iteration: pop the top subgoal and apply every rule that concludes it. */
  function Pop(rules: seq<Rule>, s: Search): (t: Search)
    requires |s.subgoals| > 0
    ensures s.factBase <= t.factBase && |t.factBase| <= |s.factBase| + 1
    ensures s.found <= t.found
    ensures s.subgoals[..|s.subgoals| - 1] <= t.subgoals
  {
    var g := s.subgoals[|s.subgoals| - 1];
    var rest := s.subgoals[..|s.subgoals| - 1];
    var ks := Select(rules, Concludes(g, s.factBase));
    if |ks| == 0 then Search(rest, s.factBase, s.found)
    else
      Search(rest + PremisesOf(rules, ks),
             if g in s.factBase then s.factBase else s.factBase + [g],
             s.found + Numbers(rules, ks))
  }

  /** The loop from `s`, allowed at most `fuel` more pops: `None` when the stack is
      still not empty after that many. */
  function Run(rules: seq<Rule>, s: Search, fuel: nat): (r: Option<Search>)
    ensures r.Some? ==> r.value.subgoals == []
    ensures r.Some? ==> s.factBase <= r.value.factBase && s.found <= r.value.found
    decreases fuel
  {
    if |s.subgoals| == 0 then Some(s)
    else if fuel == 0 then None
    else Run(rules, Pop(rules, s), fuel - 1)
  }

  /** The outcome of `backward_chaining(goal)` when it returns within `fuel` pops. */
  datatype Outcome = Finished(engine: Engine) | OutOfFuel

  /** `backward_chaining(goal)`: start from the goal alone, then append the reversed
      discovery list to the trace. */
  function BackwardSpec(e: Engine, goal: Fact, fuel: nat): (r: Outcome)
    ensures r.Finished? ==> r.engine.ruleBase == e.ruleBase && e.ruleOrder <= r.engine.ruleOrder
    ensures r.Finished? ==> e.factBase <= r.engine.factBase
  {
    match Run(e.ruleBase, Search([goal], e.factBase, []), fuel)
    case None => OutOfFuel
    case Some(s) => Finished(Engine(e.ruleBase, s.factBase, e.ruleOrder + Reverse(s.found)))
  }

  /** More pops never change a result that fewer pops already reached. */
  lemma {:induction false} RunMoreFuel(rules: seq<Rule>, s: Search, fuel: nat, more: nat)
    requires Run(rules, s, fuel).Some? && fuel <= more
    ensures Run(rules, s, more) == Run(rules, s, fuel)
    decreases fuel
  {
    if |s.subgoals| > 0 {
      RunNeedsFuel(rules, s, fuel);
      var t := Pop(rules, s);
      RunPopped(rules, s, t, fuel);
      RunPopped(rules, s, t, more);
      RunMoreFuel(rules, t, fuel - 1, more - 1);
    }
  }

  /** The result of `backward_chaining` does not depend on the pop bound once the
      bound is large enough for the loop to end. */
  lemma BackwardFuelIrrelevant(e: Engine, goal: Fact, fuel: nat, more: nat)
    requires BackwardSpec(e, goal, fuel).Finished? && fuel <= more
    ensures BackwardSpec(e, goal, more) == BackwardSpec(e, goal, fuel)
  {
    RunMoreFuel(e.ruleBase, Search([goal], e.factBase, []), fuel, more);
  }

  // ---------------------------------------------------------------------------
  // Facts and trace after the first pop
  // ---------------------------------------------------------------------------

  /** Rule `r` could have been applied to some subgoal known in `facts`: all its
      premises are known and one of its actions is. */
  predicate Supports(r: Rule, facts: seq<Fact>)
  {
    AllKnown(r.premises, facts) && exists g :: g in r.actions && g in facts
  }

  /** Number `n` belongs to a rule that `Supports` the facts. */
  predicate Justified(rules: seq<Rule>, facts: seq<Fact>, n: nat)
  {
    exists k :: 0 <= k < |rules| && rules[k].number == n && Supports(rules[k], facts)
  }

  /** Every number in `ns` is `Justified`. */
  predicate AllJustified(rules: seq<Rule>, facts: seq<Fact>, ns: seq<nat>)
  {
    forall i :: 0 <= i < |ns| ==> Justified(rules, facts, ns[i])
  }

  lemma JustifiedAppend(rules: seq<Rule>, facts: seq<Fact>, a: seq<nat>, b: seq<nat>)
    requires AllJustified(rules, facts, a) && AllJustified(rules, facts, b)
    ensures AllJustified(rules, facts, a + b)
  {
    forall i | 0 <= i < |a + b|
      ensures Justified(rules, facts, (a + b)[i])
    {
      if i >= |a| {
        assert (a + b)[i] == b[i - |a|];
      }
    }
  }

  /** After the first pop the fact base no longer changes: it is `facts`, every
      subgoal on the stack is already in it, and every recorded number is
      justified by it. */
  predicate Settled(rules: seq<Rule>, s: Search, facts: seq<Fact>)
  {
    && s.factBase == facts
    && (forall x :: x in s.subgoals ==> x in facts)
    && AllJustified(rules, facts, s.found)
  }

  /** The numbers of rules that conclude `g` from known facts are justified by any
      fact base that contains those facts and `g`. */
  lemma ConcludersJustified(rules: seq<Rule>, g: Fact, known: seq<Fact>, facts: seq<Fact>)
    requires forall f :: f in known ==> f in facts
    requires g in facts
    ensures AllJustified(rules, facts, Numbers(rules, Select(rules, Concludes(g, known))))
  {
    var ks := Select(rules, Concludes(g, known));
    SelectSpec(rules, Concludes(g, known));
    NumbersAt(rules, ks);
    forall i | 0 <= i < |ks|
      ensures Justified(rules, facts, Numbers(rules, ks)[i])
    {
      var k := ks[i];
      assert Holds(Concludes(g, known), rules[k]);
      assert Supports(rules[k], facts);
    }
  }

  /** The premises pushed for `g` are all known. */
  lemma PushedKnown(rules: seq<Rule>, g: Fact, known: seq<Fact>)
    ensures var ks := Select(rules, Concludes(g, known));
      forall x :: x in PremisesOf(rules, ks) ==> x in known
  {
    var ks := Select(rules, Concludes(g, known));
    SelectSpec(rules, Concludes(g, known));
    forall x | x in PremisesOf(rules, ks)
      ensures x in known
    {
      InPremisesOf(rules, ks, x);
      var i :| 0 <= i < |ks| && x in rules[ks[i]].premises;
      assert Holds(Concludes(g, known), rules[ks[i]]);
    }
  }

  /** Popping a subgoal that is already known leaves the fact base as it is. */
  lemma PopKnown(rules: seq<Rule>, s: Search)
    requires |s.subgoals| > 0 && s.subgoals[|s.subgoals| - 1] in s.factBase
    ensures var ks := Select(rules, Concludes(s.subgoals[|s.subgoals| - 1], s.factBase));
      Pop(rules, s) == Search(s.subgoals[..|s.subgoals| - 1] + PremisesOf(rules, ks),
                              s.factBase, s.found + Numbers(rules, ks))
  {
  }

  /** A settled stack popped: every subgoal remains known. */
  lemma PopSubgoalsKnown(rules: seq<Rule>, s: Search, facts: seq<Fact>)
    requires |s.subgoals| > 0 && Settled(rules, s, facts)
    ensures forall x :: x in Pop(rules, s).subgoals ==> x in facts
  {
    var g := s.subgoals[|s.subgoals| - 1];
    var rest := s.subgoals[..|s.subgoals| - 1];
    var ks := Select(rules, Concludes(g, facts));
    PopKnown(rules, s);
    PushedKnown(rules, g, facts);
    forall x | x in rest + PremisesOf(rules, ks)
      ensures x in facts
    {
      if x !in rest {
        assert x in PremisesOf(rules, ks);
      }
    }
  }

  /** A settled stack popped: every recorded number remains justified. */
  lemma PopFoundJustified(rules: seq<Rule>, s: Search, facts: seq<Fact>)
    requires |s.subgoals| > 0 && Settled(rules, s, facts)
    ensures AllJustified(rules, facts, Pop(rules, s).found)
  {
    var g := s.subgoals[|s.subgoals| - 1];
    PopKnown(rules, s);
    ConcludersJustified(rules, g, facts, facts);
    JustifiedAppend(rules, facts, s.found, Numbers(rules, Select(rules, Concludes(g, facts))));
  }

  /** One pop keeps the search `Settled`. */
  lemma PopKeepsSettled(rules: seq<Rule>, s: Search, facts: seq<Fact>)
    requires |s.subgoals| > 0 && Settled(rules, s, facts)
    ensures Settled(rules, Pop(rules, s), facts)
  {
    PopKnown(rules, s);
    PopSubgoalsKnown(rules, s, facts);
    PopFoundJustified(rules, s, facts);
  }

  /** Every later pop keeps the search `Settled`. */
  lemma {:induction false} RunKeepsSettled(rules: seq<Rule>, s: Search, facts: seq<Fact>, fuel: nat, r: Search)
    requires Settled(rules, s, facts) && Run(rules, s, fuel) == Some(r)
    ensures Settled(rules, r, facts)
    decreases fuel
  {
    if |s.subgoals| > 0 {
      var t := SettledStep(rules, s, facts, fuel, r);
      RunKeepsSettled(rules, t, facts, fuel - 1, r);
    }
  }

  /** One pop of a settled search that reaches `r` within `fuel` pops. */
  lemma SettledStep(rules: seq<Rule>, s: Search, facts: seq<Fact>, fuel: nat, r: Search) returns (t: Search)
    requires |s.subgoals| > 0 && Settled(rules, s, facts) && Run(rules, s, fuel) == Some(r)
    ensures fuel > 0 && Settled(rules, t, facts) && Run(rules, t, fuel - 1) == Some(r)
  {
    RunNeedsFuel(rules, s, fuel);
    t := Pop(rules, s);
    RunPopped(rules, s, t, fuel);
    PopKeepsSettled(rules, s, facts);
  }

  /** Some rule has `goal` among its actions and all its premises known. */
  predicate Concludable(rules: seq<Rule>, facts: seq<Fact>, goal: Fact)
  {
    exists k :: 0 <= k < |rules| && Holds(Concludes(goal, facts), rules[k])
  }

  /** The fact base after the first pop: the goal is added exactly when it is new
      and some rule concludes it from known facts. */
  function AfterGoal(rules: seq<Rule>, facts: seq<Fact>, goal: Fact): (after: seq<Fact>)
  {
    if goal !in facts && Concludable(rules, facts, goal) then facts + [goal] else facts
  }

  /** The first pop records the numbers of the rules that conclude the goal. */
  lemma FirstPopFound(rules: seq<Rule>, facts: seq<Fact>, goal: Fact)
    ensures Pop(rules, Search([goal], facts, [])).found == Numbers(rules, Select(rules, Concludes(goal, facts)))
  {
  }

  /** The first pop (of the goal itself) settles the search. */
  lemma FirstPop(rules: seq<Rule>, facts: seq<Fact>, goal: Fact)
    ensures var s := Pop(rules, Search([goal], facts, []));
      && Settled(rules, s, AfterGoal(rules, facts, goal))
      && s.found == Numbers(rules, Select(rules, Concludes(goal, facts)))
  {
    var start := Search([goal], facts, []);
    var ks := Select(rules, Concludes(goal, facts));
    var s := Pop(rules, start);
    var after := AfterGoal(rules, facts, goal);
    assert start.subgoals[..0] == [];
    SelectSpec(rules, Concludes(goal, facts));
    if |ks| > 0 {
      assert Holds(Concludes(goal, facts), rules[ks[0]]);
      assert s.factBase == after;
      assert goal in after;
      PushedKnown(rules, goal, facts);
      ConcludersJustified(rules, goal, facts, after);
      assert s.found == Numbers(rules, ks);
    } else {
      assert !Concludable(rules, facts, goal);
    }
  }

  /** The search that `backward_chaining(goal)` ends with, when it ends: settled
      on the fact base after the first pop, and extending what the first pop
      recorded. */
  lemma FinalSearch(e: Engine, goal: Fact, fuel: nat) returns (s: Search)
    requires BackwardSpec(e, goal, fuel).Finished?
    ensures Settled(e.ruleBase, s, AfterGoal(e.ruleBase, e.factBase, goal))
    ensures Numbers(e.ruleBase, Select(e.ruleBase, Concludes(goal, e.factBase))) <= s.found
    ensures BackwardSpec(e, goal, fuel).engine == Engine(e.ruleBase, s.factBase, e.ruleOrder + Reverse(s.found))
  {
    var rules := e.ruleBase;
    var start := Search([goal], e.factBase, []);
    var first := StartPop(e, goal, fuel);
    FirstPop(rules, e.factBase, goal);
    s := Run(rules, first, fuel - 1).value;
    RunKeepsSettled(rules, first, AfterGoal(rules, e.factBase, goal), fuel - 1, s);
  }

  /** The discovery list a finished search ends with starts with what the first
      pop recorded, and its reversal closes the trace. */
  lemma FinalFound(e: Engine, goal: Fact, fuel: nat) returns (s: Search)
    requires BackwardSpec(e, goal, fuel).Finished?
    ensures Numbers(e.ruleBase, Select(e.ruleBase, Concludes(goal, e.factBase))) <= s.found
    ensures BackwardSpec(e, goal, fuel).engine.ruleOrder == e.ruleOrder + Reverse(s.found)
  {
    var first := StartPop(e, goal, fuel);
    FirstPopFound(e.ruleBase, e.factBase, goal);
    s := Run(e.ruleBase, first, fuel - 1).value;
  }

  /** A finished search has popped the goal at least once. */
  lemma StartPop(e: Engine, goal: Fact, fuel: nat) returns (first: Search)
    requires BackwardSpec(e, goal, fuel).Finished?
    ensures fuel >= 1 && first == Pop(e.ruleBase, Search([goal], e.factBase, []))
    ensures Run(e.ruleBase, first, fuel - 1).Some?
    ensures BackwardSpec(e, goal, fuel).engine
         == Engine(e.ruleBase, Run(e.ruleBase, first, fuel - 1).value.factBase,
                   e.ruleOrder + Reverse(Run(e.ruleBase, first, fuel - 1).value.found))
  {
    first := Pop(e.ruleBase, Search([goal], e.factBase, []));
  }

  /** When `backward_chaining(goal)` returns, the fact base is either unchanged or
      the old one followed by the goal; the goal is added exactly when it was
      absent and some rule with the goal among its actions had all its premises
      already known. */
  lemma BackwardFacts(e: Engine, goal: Fact, fuel: nat)
    requires BackwardSpec(e, goal, fuel).Finished?
    ensures BackwardSpec(e, goal, fuel).engine.factBase == AfterGoal(e.ruleBase, e.factBase, goal)
  {
    var s := FinalSearch(e, goal, fuel);
  }

  /** When `backward_chaining(goal)` returns, the trace is the old trace followed by
      recorded numbers that each belong to a rule whose premises are all known and
      one of whose actions is known. */
  lemma BackwardTrace(e: Engine, goal: Fact, fuel: nat)
    requires BackwardSpec(e, goal, fuel).Finished?
    ensures var e' := BackwardSpec(e, goal, fuel).engine;
      && e.ruleOrder <= e'.ruleOrder
      && forall i :: |e.ruleOrder| <= i < |e'.ruleOrder| ==> Justified(e.ruleBase, e'.factBase, e'.ruleOrder[i])
  {
    var s := FinalSearch(e, goal, fuel);
    var e' := BackwardSpec(e, goal, fuel).engine;
    var m := |e.ruleOrder|;
    forall i | m <= i < |e'.ruleOrder|
      ensures Justified(e.ruleBase, e'.factBase, e'.ruleOrder[i])
    {
      assert e'.ruleOrder[i] == s.found[|s.found| - 1 - (i - m)];
    }
  }

  /** The trace ends with the numbers of the rules that conclude the goal itself
      from the initial facts, in reverse store order: reversal puts the outermost
      goal's rules last. */
  lemma BackwardTraceEnds(e: Engine, goal: Fact, fuel: nat)
    requires BackwardSpec(e, goal, fuel).Finished?
    ensures var e' := BackwardSpec(e, goal, fuel).engine;
      var g := Reverse(Numbers(e.ruleBase, Select(e.ruleBase, Concludes(goal, e.factBase))));
      |g| <= |e'.ruleOrder| && e'.ruleOrder[|e'.ruleOrder| - |g|..] == g
  {
    var s := FinalFound(e, goal, fuel);
    var g := Numbers(e.ruleBase, Select(e.ruleBase, Concludes(goal, e.factBase)));
    ReversedPrefixEnds(e.ruleOrder, g, s.found);
  }

  /** Reversal turns a prefix into a suffix: reversed, the prefix `a` of `b` starts
      at position `|b| - |a|` of the reversed `b`. */
  lemma ReversePrefix<T>(a: seq<T>, b: seq<T>)
    requires a <= b
    ensures Reverse(a) == Reverse(b)[|b| - |a|..]
  {
  }

  /** Appending a reversed list whose prefix is `a` ends with `a` reversed. */
  lemma ReversedPrefixEnds<T>(front: seq<T>, a: seq<T>, b: seq<T>)
    requires a <= b
    ensures var t := front + Reverse(b);
      |Reverse(a)| <= |t| && t[|t| - |a|..] == Reverse(a)
  {
    ReversePrefix(a, b);
    DropAppend(front, Reverse(b), |b| - |a|);
  }

  /** Dropping past the front of a concatenation drops from its back part. */
  lemma DropAppend<T>(x: seq<T>, y: seq<T>, k: nat)
    requires k <= |y|
    ensures (x + y)[|x| + k..] == y[k..]
  {
  }

  // ---------------------------------------------------------------------------
  // The loop as the source writes it
  // ---------------------------------------------------------------------------

  /** The scan of the rule base for one subgoal: the rules, in store order, whose
      actions contain it and whose premises are all in the fact base. */
  method Applicable(rules: seq<Rule>, subgoal: Fact, facts: seq<Fact>) returns (applicable: seq<nat>)
    ensures applicable == Select(rules, Concludes(subgoal, facts))
  {
    applicable := [];
    var j := 0;
    while j < |rules|
      invariant j <= |rules|
      invariant applicable == Select(rules[..j], Concludes(subgoal, facts))
    {
      assert rules[..j + 1][..j] == rules[..j];
      if subgoal in rules[j].actions && AllKnown(rules[j].premises, facts) {
        applicable := applicable + [j];
      }
      j := j + 1;
    }
    assert rules[..|rules|] == rules;
  }

  /** For each applicable rule in turn: push its premises and record its number. */
  method PushPremises(rules: seq<Rule>, applicable: seq<nat>, subgoals: seq<Fact>, found: seq<nat>)
    returns (subgoals': seq<Fact>, found': seq<nat>)
    requires ValidIndices(rules, applicable)
    ensures subgoals' == subgoals + PremisesOf(rules, applicable)
    ensures found' == found + Numbers(rules, applicable)
  {
    subgoals', found' := subgoals, found;
    var i := 0;
    while i < |applicable|
      invariant i <= |applicable|
      invariant subgoals' == subgoals + PremisesOf(rules, applicable[..i])
      invariant found' == found + Numbers(rules, applicable[..i])
    {
      assert applicable[..i + 1][..i] == applicable[..i];
      subgoals' := subgoals' + rules[applicable[i]].premises;
      found' := found' + [rules[applicable[i]].number];
      i := i + 1;
    }
    assert applicable[..|applicable|] == applicable;
  }

  /** One iteration of the `while subgoals` loop. */
  method PopSubgoal(rules: seq<Rule>, s: Search) returns (t: Search)
    requires |s.subgoals| > 0
    ensures t == Pop(rules, s)
  {
    var subgoals, facts, found := s.subgoals, s.factBase, s.found;
    var subgoal := subgoals[|subgoals| - 1];
    subgoals := subgoals[..|subgoals| - 1];
    var applicable := Applicable(rules, subgoal, facts);
    if |applicable| > 0 {
      subgoals, found := PushPremises(rules, applicable, subgoals, found);
      if subgoal !in facts {
        facts := facts + [subgoal];
      }
    }
    t := Search(subgoals, facts, found);
  }

  /** Without pops left, a non-empty stack is not finished. */
  lemma StackLeft(rules: seq<Rule>, s: Search)
    requires |s.subgoals| > 0
    ensures Run(rules, s, 0) == None
  {
  }

  /** A non-empty stack needs at least one pop to finish. */
  lemma RunNeedsFuel(rules: seq<Rule>, s: Search, fuel: nat)
    requires |s.subgoals| > 0 && Run(rules, s, fuel).Some?
    ensures fuel > 0
  {
  }

  /** One pop of the reference loop, to a state already computed. */
  lemma RunPopped(rules: seq<Rule>, s: Search, t: Search, fuel: nat)
    requires |s.subgoals| > 0 && fuel > 0 && t == Pop(rules, s)
    ensures Run(rules, s, fuel) == Run(rules, t, fuel - 1)
  {
  }

  /** An empty stack is finished whatever the pops left. */
  lemma StackEmpty(rules: seq<Rule>, s: Search, fuel: nat)
    requires |s.subgoals| == 0
    ensures Run(rules, s, fuel) == Some(s)
  {
  }

  /** `backward_chaining(goal)` with at most `fuel` pops, as the reference
      `BackwardSpec` describes it. */
  method BackwardChaining(e: Engine, goal: Fact, fuel: nat) returns (out: Outcome)
    ensures out == BackwardSpec(e, goal, fuel)
  {
    var rules := e.ruleBase;
    var s := Search([goal], e.factBase, []);
    var left: nat := fuel;
    ghost var target := Run(rules, s, left);
    while |s.subgoals| > 0 && left > 0
      invariant Run(rules, s, left) == target
      decreases left
    {
      s, left := Advance(rules, s, left);
    }
    SpecAt(e, goal, fuel, s, left);
    if |s.subgoals| == 0 {
      out := Finished(Engine(rules, s.factBase, e.ruleOrder + Reverse(s.found)));
    } else {
      out := OutOfFuel;
    }
  }

  /** One pop of the loop: the reference run from the new state with one pop
      fewer is the run from the old one. */
  method Advance(rules: seq<Rule>, s: Search, left: nat) returns (t: Search, left': nat)
    requires |s.subgoals| > 0 && left > 0
    ensures left' + 1 == left
    ensures Run(rules, t, left') == Run(rules, s, left)
  {
    t := PopSubgoal(rules, s);
    RunPopped(rules, s, t, left);
    left' := left - 1;
    assert Run(rules, t, left') == Run(rules, t, left - 1);
  }

  /** `BackwardSpec` read off the state where the loop stops: an empty stack, or
      a stack that the remaining pops cannot empty. */
  lemma SpecAt(e: Engine, goal: Fact, fuel: nat, s: Search, left: nat)
    requires Run(e.ruleBase, Search([goal], e.factBase, []), fuel) == Run(e.ruleBase, s, left)
    requires |s.subgoals| == 0 || left == 0
    ensures |s.subgoals| == 0 ==>
      BackwardSpec(e, goal, fuel) == Finished(Engine(e.ruleBase, s.factBase, e.ruleOrder + Reverse(s.found)))
    ensures |s.subgoals| > 0 ==> BackwardSpec(e, goal, fuel) == OutOfFuel
  {
    if |s.subgoals| == 0 {
      StackEmpty(e.ruleBase, s, left);
    } else {
      StackLeft(e.ruleBase, s);
    }
  }

  // ---------------------------------------------------------------------------
  // The loop need not end
  // ---------------------------------------------------------------------------

  /** A rule whose only premise is also its only action. */
  function SelfLoop(text: string, a: Fact): (rules: seq<Rule>)
  {
    [Rule(text, 1, [a], [a])]
  }

  /** Popping `a` under the self-loop rule, with `a` known, pushes `a` again. */
  lemma SelfLoopPop(text: string, a: Fact, found: seq<nat>)
    ensures Pop(SelfLoop(text, a), Search([a], [a], found)) == Search([a], [a], found + [1])
  {
    var rules := SelfLoop(text, a);
    assert Holds(Concludes(a, [a]), rules[0]);
    assert Select(rules, Concludes(a, [a])) == [0] by {
      assert rules[..0] == [];
    }
    assert PremisesOf(rules, [0]) == [a];
    assert Numbers(rules, [0]) == [1];
  }

  /** No number of pops empties the stack. */
  lemma {:induction false} SelfLoopRuns(text: string, a: Fact, found: seq<nat>, fuel: nat)
    ensures Run(SelfLoop(text, a), Search([a], [a], found), fuel) == None
    decreases fuel
  {
    if fuel == 0 {
      StackLeft(SelfLoop(text, a), Search([a], [a], found));
    } else {
      SelfLoopRuns(text, a, found + [1], fuel - 1);
      SelfLoopStep(text, a, found, fuel);
    }
  }

  /** One pop under the self-loop rule leads back to the same stack. */
  lemma SelfLoopStep(text: string, a: Fact, found: seq<nat>, fuel: nat)
    requires fuel > 0
    ensures Run(SelfLoop(text, a), Search([a], [a], found), fuel)
         == Run(SelfLoop(text, a), Search([a], [a], found + [1]), fuel - 1)
  {
    var rules, s := SelfLoop(text, a), Search([a], [a], found);
    RunPopped(rules, s, Pop(rules, s), fuel);
    SelfLoopPop(text, a, found);
  }

  /** With a rule `IF a THEN a`, facts `[a]` and goal `a`, the goal is pushed back
      on every pop: no number of pops lets the loop end. */
  lemma SelfLoopDiverges(text: string, a: Fact, ruleOrder: seq<nat>, fuel: nat)
    ensures BackwardSpec(Engine(SelfLoop(text, a), [a], ruleOrder), a, fuel) == OutOfFuel
  {
    SelfLoopRuns(text, a, [], fuel);
  }
}

=== FILE: engine.dfy ===
/** The expert system object: its rule base, its fact base and the trace of rule
    numbers applied so far, plus its construction from rule lines. */
module ExpertSystem {
  import opened Wrappers
  import opened Rules
  import opened RuleParser

  /** The state of one expert system. `ruleOrder` persists across chaining calls
      unless the caller resets it. */
  datatype Engine = Engine(ruleBase: seq<Rule>, factBase: seq<Fact>, ruleOrder: seq<nat>)

  /** Every result before position `i` is a success. */
  predicate SucceedsBefore<T, E>(rs: seq<Result<T, E>>, i: nat)
  {
    forall j :: 0 <= j < i && j < |rs| ==> rs[j].Success?
  }

  /** The values of `rs` if all are successes, otherwise the first error. */
  function Collect<T, E>(rs: seq<Result<T, E>>): (r: Result<seq<T>, E>)
    ensures r.Success? <==> forall i :: 0 <= i < |rs| ==> rs[i].Success?
    ensures r.Success? ==> |r.value| == |rs|
    ensures r.Success? ==> forall i :: 0 <= i < |rs| ==> rs[i] == Success(r.value[i])
    ensures r.Failure? ==>
      exists i :: 0 <= i < |rs| && rs[i] == Failure(r.error) && SucceedsBefore(rs, i)
  {
    if |rs| == 0 then Success([])
    else
      match rs[0]
      case Failure(e) =>
        assert SucceedsBefore(rs, 0);
        Failure(e)
      case Success(v) =>
        match Collect(rs[1..])
        case Failure(e) =>
          assert exists i :: 0 <= i < |rs| && rs[i] == Failure(e) && SucceedsBefore(rs, i) by {
            var i :| 0 <= i < |rs[1..]| && rs[1..][i] == Failure(e) && SucceedsBefore(rs[1..], i);
            assert rs[1..][i] == rs[i + 1];
            forall j | 0 <= j < i + 1
              ensures rs[j].Success?
            {
              if j > 0 {
                assert rs[1..][j - 1] == rs[j];
              }
            }
            assert SucceedsBefore(rs, i + 1);
          }
          Failure(e)
        case Success(vs) => Success([v] + vs)
  }

  /** Parse every line in order; the first line that does not parse aborts the
      whole rule base with that line's error (no partial rule list). */
  function ParseRuleBase(lines: seq<string>): (r: Result<seq<Rule>, ParseError>)
    ensures r.Success? <==> forall i :: 0 <= i < |lines| ==> ParseRule(lines[i]).Success?
    ensures r.Success? ==> |r.value| == |lines|
    ensures r.Success? ==> forall i :: 0 <= i < |lines| ==> ParseRule(lines[i]) == Success(r.value[i])
    ensures r.Failure? ==>
      exists i :: 0 <= i < |lines|
        && ParseRule(lines[i]) == Failure(r.error) && ParsesBefore(lines, i)
  {
    var rs := seq(|lines|, i requires 0 <= i < |lines| => ParseRule(lines[i]));
    assert forall i :: 0 <= i < |lines| ==> rs[i] == ParseRule(lines[i]);
    var r := Collect(rs);
    assert r.Failure? ==>
      exists i :: 0 <= i < |lines|
        && ParseRule(lines[i]) == Failure(r.error) && ParsesBefore(lines, i) by {
      if r.Failure? {
        var i :| 0 <= i < |rs| && rs[i] == Failure(r.error) && SucceedsBefore(rs, i);
        forall j | 0 <= j < i
          ensures ParseRule(lines[j]).Success?
        {
          assert rs[j].Success?;
        }
        assert ParsesBefore(lines, i);
      }
    }
    r
  }

  /** Every line before `i` parses. */
  predicate ParsesBefore(lines: seq<string>, i: nat)
  {
    forall j :: 0 <= j < i && j < |lines| ==> ParseRule(lines[j]).Success?
  }

  /** The error of a rule base is the error of its first bad line, whatever
      follows it. */
  lemma FirstBadLine(lines: seq<string>, i: nat)
    requires i < |lines| && ParsesBefore(lines, i) && ParseRule(lines[i]).Failure?
    ensures ParseRuleBase(lines) == Failure(InvalidRuleFormat(lines[i]))
  {
    var r := ParseRuleBase(lines);
    var j :| 0 <= j < |lines| && ParseRule(lines[j]) == Failure(r.error) && ParsesBefore(lines, j);
    assert j == i;
  }

  /** A new expert system over the given (already stripped) rule lines and
      initial facts, with an empty trace. */
  function NewEngine(lines: seq<string>, facts: seq<Fact>): (r: Result<Engine, ParseError>)
    ensures r.Success? <==> forall i :: 0 <= i < |lines| ==> ParseRule(lines[i]).Success?
    ensures r.Success? ==> r.value.factBase == facts && r.value.ruleOrder == []
    ensures r.Success? ==> |r.value.ruleBase| == |lines|
    ensures r.Success? ==> forall i :: 0 <= i < |lines| ==> ParseRule(lines[i]) == Success(r.value.ruleBase[i])
  {
    match ParseRuleBase(lines)
    case Failure(e) => Failure(e)
    case Success(rules) => Success(Engine(rules, facts, []))
  }
}

=== FILE: forward.dfy ===
/** Forward chaining: repeatedly fire the first rule, in store order, whose number
    is not yet in the trace and whose premises are all known, until no such rule
    is left. */
module Forward {
  import opened Wrappers
  import opened Rules
  import opened ExpertSystem

  /** No rule can fire: every rule's number is in `order` or some premise is unknown. */
  predicate Quiescent(rules: seq<Rule>, facts: seq<Fact>, order: seq<nat>)
  {
    forall k :: 0 <= k < |rules| ==> !Holds(Fireable(facts, order), rules[k])
  }

  /** The rule at `k` can fire and no rule before it can. */
  predicate IsFirstFireable(rules: seq<Rule>, facts: seq<Fact>, order: seq<nat>, k: nat)
  {
    && k < |rules|
    && Holds(Fireable(facts, order), rules[k])
    && forall j :: 0 <= j < k ==> !Holds(Fireable(facts, order), rules[j])
  }

  /** The rule one round fires: the head of the list of applicable rules, if any. */
  function FirstFireable(rules: seq<Rule>, facts: seq<Fact>, order: seq<nat>): (r: Option<nat>)
    ensures r.None? <==> Quiescent(rules, facts, order)
    ensures r.Some? ==> IsFirstFireable(rules, facts, order, r.value)
  {
    var applicable := Select(rules, Fireable(facts, order));
    SelectSpec(rules, Fireable(facts, order));
    if |applicable| == 0 then None
    else
      SelectIncreasing(rules, Fireable(facts, order));
      assert forall j :: 0 <= j < applicable[0] && Holds(Fireable(facts, order), rules[j]) ==> j in applicable;
      Some(applicable[0])
  }

  /** The numbers carried by rules whose number is not yet in `order`. */
  function Unfired(rules: seq<Rule>, order: seq<nat>): (ns: set<nat>)
  {
    set i | 0 <= i < |rules| && rules[i].number !in order :: rules[i].number
  }

  /** Recording the number of a not yet recorded rule removes exactly that number
      from the unfired numbers. */
  lemma UnfiredShrinks(rules: seq<Rule>, order: seq<nat>, k: nat)
    requires k < |rules| && rules[k].number !in order
    ensures rules[k].number in Unfired(rules, order)
    ensures Unfired(rules, order + [rules[k].number]) == Unfired(rules, order) - {rules[k].number}
    ensures |Unfired(rules, order + [rules[k].number])| < |Unfired(rules, order)|
  {
    var n := rules[k].number;
    var before, after := Unfired(rules, order), Unfired(rules, order + [n]);
    assert n in before;
    forall m | m in after
      ensures m in before - {n}
    {
      var i :| 0 <= i < |rules| && rules[i].number !in order + [n] && rules[i].number == m;
    }
    forall m | m in before - {n}
      ensures m in after
    {
      var i :| 0 <= i < |rules| && rules[i].number !in order && rules[i].number == m;
      assert rules[i].number !in order + [n];
    }
  }

  /** The state the loop carries: the object's fact base and trace, and the list
      of facts it returns (which starts as a copy of the fact base). */
  datatype Round = Round(factBase: seq<Fact>, ruleOrder: seq<nat>, newFacts: seq<Fact>)

  /** The `while True` loop from a given state. */
  function Saturate(rules: seq<Rule>, factBase: seq<Fact>, ruleOrder: seq<nat>, newFacts: seq<Fact>): (out: Round)
    ensures factBase <= out.factBase && ruleOrder <= out.ruleOrder
    ensures out.newFacts == newFacts + out.factBase[|factBase|..]
    ensures Quiescent(rules, out.factBase, out.ruleOrder)
    decreases |Unfired(rules, ruleOrder)|
  {
    match FirstFireable(rules, factBase, ruleOrder)
    case None => Round(factBase, ruleOrder, newFacts)
    case Some(k) =>
      var n := rules[k].number;
      UnfiredShrinks(rules, ruleOrder, k);
      var acts := rules[k].actions;
      var out := Saturate(rules, factBase + acts, ruleOrder + [n], newFacts + acts);
      ReturnedSuffix(newFacts, factBase, acts, out.factBase);
      out
  }

  /** The list the loop returns gains `acts` along with the fact base, so it
      keeps ending in everything the fact base gained. */
  lemma ReturnedSuffix(newFacts: seq<Fact>, factBase: seq<Fact>, acts: seq<Fact>, z: seq<Fact>)
    requires factBase + acts <= z
    ensures (newFacts + acts) + z[|factBase + acts|..] == newFacts + z[|factBase|..]
  {
    AppendSuffix(factBase, acts, z);
    assert (newFacts + acts) + z[|factBase + acts|..] == newFacts + (acts + z[|factBase + acts|..]);
  }

  /** The loop records each number at most once, only numbers not recorded
      before, so it fires at most one rule per unfired number. */
  lemma {:induction false} SaturateFresh(rules: seq<Rule>, factBase: seq<Fact>, ruleOrder: seq<nat>, newFacts: seq<Fact>)
    ensures var out := Saturate(rules, factBase, ruleOrder, newFacts);
      && NoDup(out.ruleOrder[|ruleOrder|..])
      && (forall n :: n in out.ruleOrder[|ruleOrder|..] ==> n !in ruleOrder && n in Unfired(rules, ruleOrder))
      && |out.ruleOrder| - |ruleOrder| <= |Unfired(rules, ruleOrder)|
    decreases |Unfired(rules, ruleOrder)|
  {
    match FirstFireable(rules, factBase, ruleOrder)
    case None =>
    case Some(k) =>
      var n := rules[k].number;
      UnfiredShrinks(rules, ruleOrder, k);
      var order' := ruleOrder + [n];
      SaturateFresh(rules, factBase + rules[k].actions, order', newFacts + rules[k].actions);
      var out := Saturate(rules, factBase + rules[k].actions, order', newFacts + rules[k].actions);
      AppendSuffix(ruleOrder, [n], out.ruleOrder);
      var rest := out.ruleOrder[|order'|..];
      assert out.ruleOrder[|ruleOrder|..] == [n] + rest;
      assert n !in rest;
      NoDupCons(n, rest);
      forall m | m in rest
        ensures m !in ruleOrder && m in Unfired(rules, ruleOrder)
      {
        assert m !in order';
      }
  }

  /** What `forward_chaining` returns, and the object state it leaves behind. */
  datatype Forwarded = Forwarded(engine: Engine, newFacts: seq<Fact>)

  /** `forward_chaining()`: the returned list equals the final fact base, which
      extends the initial one; the trace extends the initial trace by distinct
      numbers not in it, at most one per unfired number; and no rule can fire at
      the end. */
  function ForwardChaining(e: Engine): (r: Forwarded)
    ensures r.engine.ruleBase == e.ruleBase
    ensures r.newFacts == r.engine.factBase
    ensures e.factBase <= r.engine.factBase && e.ruleOrder <= r.engine.ruleOrder
    ensures NoDup(r.engine.ruleOrder[|e.ruleOrder|..])
    ensures forall n :: n in r.engine.ruleOrder[|e.ruleOrder|..] ==> n !in e.ruleOrder
    ensures |r.engine.ruleOrder| - |e.ruleOrder| <= |Unfired(e.ruleBase, e.ruleOrder)|
    ensures Quiescent(r.engine.ruleBase, r.engine.factBase, r.engine.ruleOrder)
  {
    SaturateFresh(e.ruleBase, e.factBase, e.ruleOrder, e.factBase);
    var out := Saturate(e.ruleBase, e.factBase, e.ruleOrder, e.factBase);
    Forwarded(Engine(e.ruleBase, out.factBase, out.ruleOrder), out.newFacts)
  }

  // ---------------------------------------------------------------------------
  // Reference: firing runs
  // ---------------------------------------------------------------------------

  /** Firing the rules at indices `ks` in order from (`facts`, `order`) is a run of
      the forward policy: the first of them is the first fireable rule, and the
      rest are a run from the state it leaves. */
  predicate ValidRun(rules: seq<Rule>, facts: seq<Fact>, order: seq<nat>, ks: seq<nat>)
    decreases |ks|
  {
    || |ks| == 0
    || (&& IsFirstFireable(rules, facts, order, ks[0])
        && ValidRun(rules, facts + rules[ks[0]].actions, order + [rules[ks[0]].number], ks[1..]))
  }

  /** Only one rule is the first fireable one. */
  lemma FirstFireableUnique(rules: seq<Rule>, facts: seq<Fact>, order: seq<nat>, k: nat)
    requires IsFirstFireable(rules, facts, order, k)
    ensures FirstFireable(rules, facts, order) == Some(k)
  {
    var r := FirstFireable(rules, facts, order);
    assert r.Some?;
    if r.value < k {
    } else if r.value > k {
    }
  }

  /** A run from the state a first fireable rule leaves, preceded by that rule,
      is a run from the original state. */
  lemma ExtendRun(rules: seq<Rule>, facts: seq<Fact>, order: seq<nat>, k: nat, ks: seq<nat>)
    requires IsFirstFireable(rules, facts, order, k)
    requires ValidRun(rules, facts + rules[k].actions, order + [rules[k].number], ks)
    requires ValidIndices(rules, ks)
    ensures ValidRun(rules, facts, order, [k] + ks) && ValidIndices(rules, [k] + ks)
  {
    assert ([k] + ks)[1..] == ks;
  }

  /** ... and it ends in the same state. */
  lemma ExtendRunEnd(rules: seq<Rule>, facts: seq<Fact>, order: seq<nat>, k: nat, ks: seq<nat>)
    requires k < |rules| && ValidIndices(rules, ks)
    ensures ValidIndices(rules, [k] + ks)
    ensures facts + rules[k].actions + ActionsOf(rules, ks) == facts + ActionsOf(rules, [k] + ks)
    ensures order + [rules[k].number] + Numbers(rules, ks) == order + Numbers(rules, [k] + ks)
  {
    assert ([k] + ks)[1..] == ks;
    NumbersCons(rules, k, ks);
  }

  /** One round of the loop. */
  lemma SaturateStep(rules: seq<Rule>, facts: seq<Fact>, order: seq<nat>, newFacts: seq<Fact>, k: nat)
    requires FirstFireable(rules, facts, order) == Some(k)
    ensures Saturate(rules, facts, order, newFacts)
         == Saturate(rules, facts + rules[k].actions, order + [rules[k].number], newFacts + rules[k].actions)
  {
  }

  /** The loop follows a run of the forward policy: the final fact base is the
      initial one followed by the actions of the fired rules in firing order, and
      the trace gains their numbers in the same order. */
  lemma {:induction false} SaturateIsRun(rules: seq<Rule>, facts: seq<Fact>, order: seq<nat>, newFacts: seq<Fact>)
    returns (ks: seq<nat>)
    ensures ValidRun(rules, facts, order, ks) && ValidIndices(rules, ks)
    ensures Saturate(rules, facts, order, newFacts).factBase == facts + ActionsOf(rules, ks)
    ensures Saturate(rules, facts, order, newFacts).ruleOrder == order + Numbers(rules, ks)
    decreases |Unfired(rules, order)|
  {
    match FirstFireable(rules, facts, order)
    case None =>
      ks := [];
    case Some(k) =>
      var r := rules[k];
      UnfiredShrinks(rules, order, k);
      SaturateStep(rules, facts, order, newFacts, k);
      var rest := SaturateIsRun(rules, facts + r.actions, order + [r.number], newFacts + r.actions);
      ExtendRun(rules, facts, order, k, rest);
      ExtendRunEnd(rules, facts, order, k, rest);
      ks := [k] + rest;
  }

  /** Conversely, a run of the forward policy that ends where no rule can fire is
      exactly what the loop computes: the firing order is determined. */
  lemma {:induction false} RunIsSaturate(rules: seq<Rule>, facts: seq<Fact>, order: seq<nat>, newFacts: seq<Fact>, ks: seq<nat>)
    requires ValidRun(rules, facts, order, ks)
    requires ValidIndices(rules, ks)
    requires Quiescent(rules, facts + ActionsOf(rules, ks), order + Numbers(rules, ks))
    ensures Saturate(rules, facts, order, newFacts)
         == Round(facts + ActionsOf(rules, ks), order + Numbers(rules, ks), newFacts + ActionsOf(rules, ks))
    decreases |ks|
  {
    if |ks| == 0 {
      assert facts + ActionsOf(rules, ks) == facts;
      assert order + Numbers(rules, ks) == order;
      assert newFacts + ActionsOf(rules, ks) == newFacts;
    } else {
      var k, rest := ks[0], ks[1..];
      var r := rules[k];
      assert ks == [k] + rest;
      assert ValidIndices(rules, rest);
      FirstFireableUnique(rules, facts, order, k);
      SaturateStep(rules, facts, order, newFacts, k);
      ExtendRunEnd(rules, facts, order, k, rest);
      ExtendRunEnd(rules, newFacts, order, k, rest);
      RunIsSaturate(rules, facts + r.actions, order + [r.number], newFacts + r.actions, rest);
    }
  }

  /** `forward_chaining` as a run: some run of the forward policy from the initial
      state ends in the final state and no rule can fire there. */
  lemma ForwardChainingIsRun(e: Engine) returns (ks: seq<nat>)
    ensures ValidRun(e.ruleBase, e.factBase, e.ruleOrder, ks) && ValidIndices(e.ruleBase, ks)
    ensures ForwardChaining(e).engine.factBase == e.factBase + ActionsOf(e.ruleBase, ks)
    ensures ForwardChaining(e).engine.ruleOrder == e.ruleOrder + Numbers(e.ruleBase, ks)
  {
    ks := SaturateIsRun(e.ruleBase, e.factBase, e.ruleOrder, e.factBase);
  }

  /** Every run of the forward policy that reaches a state where no rule can fire
      ends where `forward_chaining` ends. */
  lemma RunIsForwardChaining(e: Engine, ks: seq<nat>)
    requires ValidRun(e.ruleBase, e.factBase, e.ruleOrder, ks)
    requires ValidIndices(e.ruleBase, ks)
    requires Quiescent(e.ruleBase, e.factBase + ActionsOf(e.ruleBase, ks), e.ruleOrder + Numbers(e.ruleBase, ks))
    ensures var r := ForwardChaining(e);
      && r.engine.factBase == e.factBase + ActionsOf(e.ruleBase, ks)
      && r.engine.ruleOrder == e.ruleOrder + Numbers(e.ruleBase, ks)
  {
    RunIsSaturate(e.ruleBase, e.factBase, e.ruleOrder, e.factBase, ks);
  }

  /** A second call without resetting the trace fires nothing and returns the
      fact base unchanged. */
  lemma ForwardChainingIdempotent(e: Engine)
    ensures var e' := ForwardChaining(e).engine;
      ForwardChaining(e') == Forwarded(e', e'.factBase)
  {
    var e' := ForwardChaining(e).engine;
    assert FirstFireable(e'.ruleBase, e'.factBase, e'.ruleOrder).None?;
  }

  /** Starting from a trace without repeats, forward chaining never repeats a
      rule number in it. */
  lemma ForwardChainingFiresOnce(e: Engine)
    requires NoDup(e.ruleOrder)
    ensures NoDup(ForwardChaining(e).engine.ruleOrder)
  {
    var order := ForwardChaining(e).engine.ruleOrder;
    var m := |e.ruleOrder|;
    forall i, j | 0 <= i < j < |order|
      ensures order[i] != order[j]
    {
      if j >= m {
        assert order[j] == order[m..][j - m];
        if i >= m {
          assert order[i] == order[m..][i - m];
        } else {
          assert order[i] == e.ruleOrder[i];
          assert order[j] in order[m..];
        }
      } else {
        assert order[i] == e.ruleOrder[i] && order[j] == e.ruleOrder[j];
      }
    }
  }
}

=== FILE: parser.dfy ===
/** The line format `R<digits>: IF <premises> THEN <actions>`, read the way
    `re.match(r"R(\d+): IF (.*) THEN (.*)", line)` reads it, and turned into a
    `Rule` by converting the digits to a number and splitting both lists at
    every comma. */
module RuleParser {
  import opened Wrappers
  import opened Rules

  /** The only failure: the line does not have the rule shape. */
  datatype ParseError = InvalidRuleFormat(line: string)

  const IfTag: string := ": IF "
  const Then: string := " THEN "

  // ---------------------------------------------------------------------------
  // Rule numbers
  // ---------------------------------------------------------------------------

  /** An ASCII decimal digit (what `\d` is taken to match here). */
  predicate IsDigit(c: char)
  {
    '0' <= c <= '9'
  }

  predicate AllDigits(s: string)
  {
    forall i :: 0 <= i < |s| ==> IsDigit(s[i])
  }

  /** The value of a run of decimal digits, leading zeros allowed (`int("007") == 7`). */
  function DecimalValue(d: string): (v: nat)
    requires AllDigits(d)
  {
    if |d| == 0 then 0
    else 10 * DecimalValue(d[..|d| - 1]) + (d[|d| - 1] as int - '0' as int)
  }

  /** The shortest decimal spelling of `n`. */
  function Decimal(n: nat): (d: string)
    ensures |d| >= 1 && AllDigits(d)
  {
    var last := ('0' as int + n % 10) as char;
    if n < 10 then [last] else Decimal(n / 10) + [last]
  }

  /** Reading back the spelling of `n` yields `n`. */
  lemma {:induction false} DecimalRoundTrip(n: nat)
    ensures DecimalValue(Decimal(n)) == n
  {
    var d := Decimal(n);
    if n >= 10 {
      assert d[..|d| - 1] == Decimal(n / 10);
      DecimalRoundTrip(n / 10);
    }
  }

  /** A leading zero does not change a rule number. */
  lemma {:induction false} LeadingZero(d: string)
    requires AllDigits(d)
    ensures AllDigits("0" + d) && DecimalValue("0" + d) == DecimalValue(d)
  {
    if |d| > 0 {
      var z := "0" + d;
      assert z[..|z| - 1] == "0" + d[..|d| - 1];
      LeadingZero(d[..|d| - 1]);
    }
  }

  /** Length of the run of digits `s` starts with (what the greedy `\d+` consumes). */
  function DigitRun(s: string): (n: nat)
    ensures n <= |s| && AllDigits(s[..n]) && (n == |s| || !IsDigit(s[n]))
  {
    if |s| == 0 || !IsDigit(s[0]) then 0
    else
      var n := 1 + DigitRun(s[1..]);
      assert s[..n] == [s[0]] + s[1..][..n - 1];
      n
  }

  lemma {:induction false} DigitRunStops(s: string, n: nat)
    requires n < |s| && AllDigits(s[..n]) && !IsDigit(s[n])
    ensures DigitRun(s) == n
  {
    if n > 0 {
      assert s[1..][..n - 1] == s[1..n];
      DigitRunStops(s[1..], n - 1);
    }
  }

  // ---------------------------------------------------------------------------
  // The two `(.*)` groups
  // ---------------------------------------------------------------------------

  /** The part of `s` before its first newline: `.` matches every character but '\n'. */
  function FirstLine(s: string): (l: string)
    ensures l <= s && '\n' !in l && (l == s || s[|l|] == '\n')
  {
    if |s| == 0 || s[0] == '\n' then []
    else [s[0]] + FirstLine(s[1..])
  }

  lemma {:induction false} FirstLineStops(s: string, l: string)
    requires l <= s && '\n' !in l && (|l| == |s| || s[|l|] == '\n')
    ensures FirstLine(s) == l
  {
    if |l| > 0 {
      assert l[1..] <= s[1..];
      FirstLineStops(s[1..], l[1..]);
    }
  }

  /** " THEN " occurs in `s` at position `k`. */
  predicate ThenAt(s: string, k: int)
  {
    0 <= k && k + |Then| <= |s| && s[k..k + |Then|] == Then
  }

  /** An occurrence of " THEN " starts and ends with a space. */
  lemma ThenAtSpaces(s: string, k: int)
    requires ThenAt(s, k)
    ensures s[k] == ' ' && s[k + |Then| - 1] == ' '
  {
    assert s[k..k + |Then|][0] == ' ';
    assert s[k..k + |Then|][|Then| - 1] == ' ';
  }

  /** Action text without spaces never holds a second " THEN ". */
  lemma SpaceFreeTail(a: string)
    requires ' ' !in a
    ensures forall j :: 0 < j <= |a| ==> !ThenAt(Then + a, j)
  {
    forall j | 0 < j <= |a|
      ensures !ThenAt(Then + a, j)
    {
      if ThenAt(Then + a, j) {
        ThenAtSpaces(Then + a, j);
      }
    }
  }

  /** The last position at most `k` where " THEN " occurs. */
  function LastThenUpTo(s: string, k: int): (r: Option<nat>)
    ensures r.Some? ==> r.value <= k && ThenAt(s, r.value)
    ensures r.Some? ==> forall j :: r.value < j <= k ==> !ThenAt(s, j)
    ensures r.None? ==> forall j :: j <= k ==> !ThenAt(s, j)
    decreases k + 1
  {
    if k < 0 then None
    else if ThenAt(s, k) then Some(k)
    else LastThenUpTo(s, k - 1)
  }

  /** Where the greedy first group stops: the last occurrence of " THEN ". */
  function LastThen(s: string): (r: Option<nat>)
    ensures r.Some? ==> ThenAt(s, r.value) && forall j :: r.value < j ==> !ThenAt(s, j)
    ensures r.None? ==> forall j :: !ThenAt(s, j)
  {
    LastThenUpTo(s, |s| - |Then|)
  }

  // ---------------------------------------------------------------------------
  // Comma lists
  // ---------------------------------------------------------------------------

  /** `s.split(",")`: the pieces between commas, untrimmed; never empty. */
  function Split(s: string): (parts: seq<string>)
    ensures |parts| >= 1
    ensures forall i :: 0 <= i < |parts| ==> ',' !in parts[i]
  {
    if |s| == 0 then [""]
    else
      var rest := Split(s[1..]);
      if s[0] == ',' then [""] + rest
      else [[s[0]] + rest[0]] + rest[1..]
  }

  /** `",".join(parts)`. */
  function Join(parts: seq<string>): (s: string)
    requires |parts| >= 1
    ensures parts[0] <= s
  {
    if |parts| == 1 then parts[0] else parts[0] + "," + Join(parts[1..])
  }

  /** Joining the pieces of a split gives back the text. */
  lemma {:induction false} JoinSplit(s: string)
    ensures Join(Split(s)) == s
  {
    if |s| > 0 {
      var rest := Split(s[1..]);
      JoinSplit(s[1..]);
      if s[0] == ',' {
        assert Split(s)[1..] == rest;
      } else if |rest| > 1 {
        assert Split(s)[1..] == rest[1..];
        assert Join(rest) == rest[0] + "," + Join(rest[1..]);
      }
    }
  }

  lemma {:induction false} SplitAtComma(p: string, t: string)
    requires ',' !in p
    ensures Split(p + "," + t) == [p] + Split(t)
  {
    if |p| == 0 {
      assert p + "," + t == "," + t;
      assert ("," + t)[1..] == t;
    } else {
      var s := p + "," + t;
      assert s[1..] == p[1..] + "," + t;
      SplitAtComma(p[1..], t);
      assert [p[0]] + p[1..] == p;
    }
  }

  lemma {:induction false} SplitNoComma(p: string)
    requires ',' !in p
    ensures Split(p) == [p]
  {
    if |p| > 0 {
      SplitNoComma(p[1..]);
      assert [p[0]] + p[1..] == p;
    }
  }

  /** Splitting a join of comma-free pieces gives back the pieces. */
  lemma {:induction false} SplitJoin(parts: seq<string>)
    requires |parts| >= 1
    requires forall i :: 0 <= i < |parts| ==> ',' !in parts[i]
    ensures Split(Join(parts)) == parts
    decreases |parts|
  {
    if |parts| == 1 {
      SplitNoComma(parts[0]);
    } else {
      SplitJoin(parts[1..]);
      SplitAtComma(parts[0], Join(parts[1..]));
      assert [parts[0]] + parts[1..] == parts;
    }
  }

  lemma {:induction false} JoinNoNewline(parts: seq<string>)
    requires |parts| >= 1
    requires forall i :: 0 <= i < |parts| ==> '\n' !in parts[i]
    ensures '\n' !in Join(parts)
    decreases |parts|
  {
    if |parts| > 1 {
      JoinNoNewline(parts[1..]);
    }
  }

  // ---------------------------------------------------------------------------
  // One rule line
  // ---------------------------------------------------------------------------

  /** The regular expression `R(\d+): IF (.*) THEN (.*)`, applied with `re.match`
      (anchored at the start only), matches `line` with groups `digits`,
      `premiseText` and `actionText`. The groups cannot span a newline, the third
      group runs to the end of the first line, and the second group is greedy, so
      no " THEN " starts inside " THEN " + `actionText` after its first position. */
  predicate Captures(line: string, digits: string, premiseText: string, actionText: string)
  {
    var head := "R" + digits + IfTag + premiseText + Then + actionText;
    && |digits| >= 1 && AllDigits(digits)
    && '\n' !in premiseText && '\n' !in actionText
    && head <= line
    && (|line| == |head| || line[|head|] == '\n')
    && forall j :: 0 < j <= |actionText| ==> !ThenAt(Then + actionText, j)
  }

  /** The three groups of a match. */
  datatype Groups = Groups(digits: string, premiseText: string, actionText: string)

  /** `re.match(r"R(\d+): IF (.*) THEN (.*)", line)`: `R`, the longest digit run,
      the tag, and then, within the first line of what follows, everything up to
      the last " THEN " and everything after it. */
  function Match(line: string): (m: Option<Groups>)
    ensures m.Some? ==> |m.value.digits| >= 1 && AllDigits(m.value.digits)
  {
    if |line| == 0 || line[0] != 'R' then None else MatchNumber(line[1..])
  }

  /** The match after the leading `R`: a non-empty digit run, then the tag. */
  function MatchNumber(s: string): (m: Option<Groups>)
    ensures m.Some? ==> |m.value.digits| >= 1 && AllDigits(m.value.digits)
  {
    var n := DigitRun(s);
    if n == 0 || !(IfTag <= s[n..]) then None
    else MatchGroups(s[..n], FirstLine(s[n..][|IfTag|..]))
  }

  /** The two `(.*)` groups of the body line, split at its last " THEN ". */
  function MatchGroups(digits: string, body: string): (m: Option<Groups>)
  {
    match LastThen(body)
    case None => None
    case Some(k) => Some(Groups(digits, body[..k], body[k + |Then|..]))
  }

  /** `Rule(line)`: the rule a line describes, or the `ValueError` it raises. */
  function ParseRule(line: string): (r: Result<Rule, ParseError>)
    ensures r.Failure? ==> r.error == InvalidRuleFormat(line)
    ensures r.Success? ==> r.value.text == line
    ensures r.Success? ==> |r.value.premises| >= 1 && |r.value.actions| >= 1
  {
    match Match(line)
    case None => Failure(InvalidRuleFormat(line))
    case Some(g) => Success(Rule(line, DecimalValue(g.digits), Split(g.premiseText), Split(g.actionText)))
  }

  /** If no " THEN " starts after position `k` of `body`, none starts inside what
      follows position `k` either (past its first position). */
  lemma GreedyTail(body: string, k: nat)
    requires k <= |body|
    requires forall j :: k < j ==> !ThenAt(body, j)
    ensures forall i :: 0 < i <= |body[k..]| ==> !ThenAt(body[k..], i)
  {
    forall i | 0 < i <= |body[k..]|
      ensures !ThenAt(body[k..], i)
    {
      if ThenAt(body[k..], i) {
        assert body[k..][i..i + |Then|] == body[k + i..k + i + |Then|];
        assert ThenAt(body, k + i);
      }
    }
  }

  /** A line with the `R` tag, a digit run of length `n` and the `": IF "` tag is
      those three pieces followed by the rest. */
  lemma LineShape(line: string, n: nat)
    requires 1 <= n < |line| && line[0] == 'R' && IfTag <= line[1 + n..]
    ensures line == "R" + line[1..1 + n] + IfTag + line[1 + n..][|IfTag|..]
  {
    var rest := line[1 + n..];
    assert line[..1] == "R";
    assert line == line[..1] + line[1..1 + n] + rest;
    assert rest == rest[..|IfTag|] + rest[|IfTag|..];
  }

  lemma PrefixThen(head: string, tail: string, line: string)
    requires line == head + tail
    ensures head <= line
    ensures |tail| > 0 ==> line[|head|] == tail[0]
  {
  }

  /** A " THEN " at `k` splits `body` into what precedes it, itself, and what follows. */
  lemma ThenSplits(body: string, k: nat)
    requires ThenAt(body, k)
    ensures body == body[..k] + Then + body[k + |Then|..]
    ensures body[k..] == Then + body[k + |Then|..]
  {
    assert body[k..] == body[k..k + |Then|] + body[k + |Then|..];
    assert body == body[..k] + body[k..];
  }

  lemma Regroup(line: string, d: string, after: string, body: string, tail: string, p: string, a: string)
    requires line == "R" + d + IfTag + after
    requires after == body + tail
    requires body == p + Then + a
    ensures line == ("R" + d + IfTag + p + Then + a) + tail
  {
    var pre := "R" + d + IfTag;
    assert line == pre + after;
    assert pre + p + Then + a == pre + body;
  }

  /** The pieces `ParseRule` cuts out of a line satisfy `Captures`. */
  lemma CutsCapture(line: string, n: nat, k: nat)
    requires 1 <= n < |line| && line[0] == 'R' && AllDigits(line[1..1 + n])
    requires IfTag <= line[1 + n..]
    requires LastThen(FirstLine(line[1 + n..][|IfTag|..])) == Some(k)
    ensures var body := FirstLine(line[1 + n..][|IfTag|..]);
      Captures(line, line[1..1 + n], body[..k], body[k + |Then|..])
  {
    var d := line[1..1 + n];
    var after := line[1 + n..][|IfTag|..];
    var body := FirstLine(after);
    var tail := after[|body|..];
    var p := body[..k];
    var a := body[k + |Then|..];
    ThenSplits(body, k);
    GreedyTail(body, k);
    LineShape(line, n);
    assert after == body + tail;
    Regroup(line, d, after, body, tail, p, a);
    var head := "R" + d + IfTag + p + Then + a;
    PrefixThen(head, tail, line);
  }

  /** The digit group and what follows it, cut from the line or from its tail. */
  lemma TailSlice(line: string, n: nat)
    requires 1 + n <= |line|
    ensures line[1..1 + n] == line[1..][..n] && line[1 + n..] == line[1..][n..]
  {
  }

  /** What a successful `Match` has checked and cut out: `n` digits after the `R`,
      the body line after the tag, and its last " THEN " at `k`. */
  lemma MatchSome(line: string) returns (n: nat, body: string, k: nat)
    requires Match(line).Some?
    ensures 1 <= n < |line| && line[0] == 'R' && AllDigits(line[1..1 + n])
    ensures IfTag <= line[1 + n..]
    ensures body == FirstLine(line[1 + n..][|IfTag|..]) && LastThen(body) == Some(k)
    ensures Match(line).value == Groups(line[1..1 + n], body[..k], body[k + |Then|..])
  {
    assert Match(line) == MatchNumber(line[1..]);
    n := DigitRun(line[1..]);
    TailSlice(line, n);
    body := FirstLine(line[1 + n..][|IfTag|..]);
    assert MatchNumber(line[1..]) == MatchGroups(line[1..1 + n], body);
    k := LastThen(body).value;
  }

  /** The groups `Match` returns satisfy `Captures`. */
  lemma MatchCaptures(line: string)
    requires Match(line).Some?
    ensures var g := Match(line).value; Captures(line, g.digits, g.premiseText, g.actionText)
  {
    var n, body, k := MatchSome(line);
    CutsCapture(line, n, k);
  }

  /** A successful parse comes from a match of the pattern, and its lists are the
      comma splits of the captured groups, which joining gives back. */
  lemma ParseRuleSound(line: string)
    requires ParseRule(line).Success?
    ensures var r := ParseRule(line).value;
      exists d, p, a :: Captures(line, d, p, a)
        && r.number == DecimalValue(d)
        && r.premises == Split(p) && r.actions == Split(a)
        && Join(r.premises) == p && Join(r.actions) == a
  {
    var g := Match(line).value;
    MatchCaptures(line);
    JoinSplit(g.premiseText);
    JoinSplit(g.actionText);
  }

  /** Where `ParseRule` cuts a line that matches the pattern. */
  lemma MatchCuts(line: string, d: string, p: string, a: string)
    requires Captures(line, d, p, a)
    ensures 1 <= |d| < |line| && line[0] == 'R' && line[1..1 + |d|] == d
    ensures DigitRun(line[1..]) == |d|
    ensures IfTag <= line[1 + |d|..]
    ensures FirstLine(line[1 + |d|..][|IfTag|..]) == p + Then + a
  {
    var body := p + Then + a;
    var tail := Decompose(line, d, body);
    DigitRunStops(d + (IfTag + body + tail), |d|);
    assert '\n' !in Then;
    FirstLineStops(body + tail, body);
  }

  /** A line that starts with `R`, the digits, the tag and a body, cut into those
      pieces and what follows. */
  lemma Decompose(line: string, d: string, body: string) returns (tail: string)
    requires "R" + d + IfTag + body <= line && |d| >= 1 && AllDigits(d)
    ensures line[0] == 'R' && 1 + |d| < |line|
    ensures line[1..] == d + (IfTag + body + tail)
    ensures line[1..1 + |d|] == d
    ensures line[1 + |d|..] == IfTag + body + tail
    ensures line[1 + |d|..][|IfTag|..] == body + tail
    ensures tail == [] || tail[0] == line[1 + |d| + |IfTag| + |body|]
  {
    var head := "R" + d + IfTag + body;
    tail := line[|head|..];
    assert line == head + tail;
    assert line[1..] == d + (IfTag + body + tail);
    assert line[1 + |d|..] == IfTag + body + tail;
  }

  /** With no " THEN " inside the action group past its start, the last " THEN " of
      the body is the one right after the premise group. */
  lemma GreedyLast(p: string, a: string)
    requires forall j :: 0 < j <= |a| ==> !ThenAt(Then + a, j)
    ensures LastThen(p + Then + a) == Some(|p|)
  {
    var body := p + Then + a;
    assert ThenAt(body, |p|);
    forall j | |p| < j
      ensures !ThenAt(body, j)
    {
      if ThenAt(body, j) {
        assert (Then + a)[j - |p|..j - |p| + |Then|] == body[j..j + |Then|];
        assert ThenAt(Then + a, j - |p|);
      }
    }
  }

  /** `Captures` pins the groups down: whenever it holds, `Match` returns exactly
      those groups. */
  lemma MatchComplete(line: string, d: string, p: string, a: string)
    requires Captures(line, d, p, a)
    ensures Match(line) == Some(Groups(d, p, a))
  {
    MatchCuts(line, d, p, a);
    GreedyLast(p, a);
    MatchFromCuts(line, d, p, a);
  }

  /** `Match` from the cuts of a matching line. */
  lemma MatchFromCuts(line: string, d: string, p: string, a: string)
    requires 1 <= |d| < |line| && line[0] == 'R' && line[1..1 + |d|] == d
    requires DigitRun(line[1..]) == |d|
    requires IfTag <= line[1 + |d|..]
    requires FirstLine(line[1 + |d|..][|IfTag|..]) == p + Then + a
    requires LastThen(p + Then + a) == Some(|p|)
    ensures Match(line) == Some(Groups(d, p, a))
  {
    TailSlice(line, |d|);
    assert Match(line) == MatchNumber(line[1..]);
    assert MatchNumber(line[1..]) == MatchGroups(d, p + Then + a);
    BodyParts(p, a);
  }

  /** The groups around the " THEN " after `p`. */
  lemma BodyParts(p: string, a: string)
    ensures (p + Then + a)[..|p|] == p && (p + Then + a)[|p| + |Then|..] == a
  {
  }

  /** A line that does not start with `R` is rejected. */
  lemma NotStartingWithR(line: string)
    requires |line| == 0 || line[0] != 'R'
    ensures ParseRule(line) == Failure(InvalidRuleFormat(line))
  {
  }

  /** A line whose `R` is not followed by a digit is rejected. */
  lemma NoRuleNumber(line: string)
    requires |line| >= 1 && line[0] == 'R' && (|line| == 1 || !IsDigit(line[1]))
    ensures ParseRule(line) == Failure(InvalidRuleFormat(line))
  {
  }

  /** A line without " THEN " anywhere is rejected. */
  lemma NoThenRejected(line: string)
    requires forall k :: !ThenAt(line, k)
    ensures ParseRule(line) == Failure(InvalidRuleFormat(line))
  {
    if Match(line).Some? {
      var k := MatchThen(line);
      assert false;
    }
  }

  /** A line the pattern matches holds " THEN " at the end of the premise group. */
  lemma MatchThen(line: string) returns (at: nat)
    requires Match(line).Some?
    ensures ThenAt(line, at)
  {
    var n, body, k := MatchSome(line);
    at := ThenOfCuts(line, n, body, k);
  }

  /** The " THEN " a match splits the body at, as a position of the line. */
  lemma ThenOfCuts(line: string, n: nat, body: string, k: nat) returns (at: nat)
    requires 1 + n + |IfTag| <= |line|
    requires body <= line[1 + n..][|IfTag|..] && ThenAt(body, k)
    ensures ThenAt(line, at)
  {
    var start := 1 + n + |IfTag|;
    assert line[1 + n..][|IfTag|..] == line[start..];
    ThenInPrefix(body, line[start..], k);
    ThenShift(line, start, k);
    at := start + k;
  }

  /** An occurrence of " THEN " in a prefix is one in the whole text. */
  lemma ThenInPrefix(body: string, s: string, k: nat)
    requires body <= s && ThenAt(body, k)
    ensures ThenAt(s, k)
  {
    assert body[k..k + |Then|] == s[k..k + |Then|];
  }

  /** An occurrence of " THEN " in a suffix is one in the whole text. */
  lemma ThenShift(s: string, start: nat, k: nat)
    requires start <= |s| && ThenAt(s[start..], k)
    ensures ThenAt(s, start + k)
  {
    assert s[start..][k..k + |Then|] == s[start + k..start + k + |Then|];
  }

  /** A match of the pattern always parses, to exactly the captured values. */
  lemma ParseRuleComplete(line: string, d: string, p: string, a: string)
    requires Captures(line, d, p, a)
    ensures ParseRule(line) == Success(Rule(line, DecimalValue(d), Split(p), Split(a)))
  {
    MatchComplete(line, d, p, a);
  }

  /** `Rule(line)` raises `ValueError` exactly when the pattern does not match. */
  lemma ParseRuleRejects(line: string)
    ensures ParseRule(line).Failure? <==> forall d, p, a :: !Captures(line, d, p, a)
  {
    if ParseRule(line).Success? {
      ParseRuleSound(line);
    } else {
      forall d, p, a
        ensures !Captures(line, d, p, a)
      {
        if Captures(line, d, p, a) {
          ParseRuleComplete(line, d, p, a);
        }
      }
    }
  }

  /** The line a rule would be written as. */
  function Format(number: nat, premises: seq<Fact>, actions: seq<Fact>): (line: string)
    requires |premises| >= 1 && |actions| >= 1
  {
    "R" + Decimal(number) + IfTag + Join(premises) + Then + Join(actions)
  }

  /** Lists a line can carry: at least one fact each, no comma or newline inside a
      fact, and no " THEN " after the separator (the greedy first group would
      swallow it). */
  predicate Writable(premises: seq<Fact>, actions: seq<Fact>)
  {
    && |premises| >= 1 && |actions| >= 1
    && (forall i :: 0 <= i < |premises| ==> ',' !in premises[i] && '\n' !in premises[i])
    && (forall i :: 0 <= i < |actions| ==> ',' !in actions[i] && '\n' !in actions[i])
    && forall j :: 0 < j <= |Join(actions)| ==> !ThenAt(Then + Join(actions), j)
  }

  /** Parsing a formatted rule gives back its number and both lists. */
  lemma ParseFormat(number: nat, premises: seq<Fact>, actions: seq<Fact>)
    requires Writable(premises, actions)
    ensures ParseRule(Format(number, premises, actions))
         == Success(Rule(Format(number, premises, actions), number, premises, actions))
  {
    var line := Format(number, premises, actions);
    JoinNoNewline(premises);
    JoinNoNewline(actions);
    assert Captures(line, Decimal(number), Join(premises), Join(actions));
    ParseRuleComplete(line, Decimal(number), Join(premises), Join(actions));
    DecimalRoundTrip(number);
    SplitJoin(premises);
    SplitJoin(actions);
  }
}

=== FILE: rules.dfy ===
/** Facts, rules, and the store-order scan both inference engines use to pick
    the rules that apply to the current working memory. */
module Rules {

  /** A fact is an opaque text token; the engines only compare facts for equality. */
  type Fact = string

  /** A parsed rule `R<number>: IF <premises> THEN <actions>`; `text` is the line it
      was parsed from. */
  datatype Rule = Rule(text: string, number: nat, premises: seq<Fact>, actions: seq<Fact>)

  /** Every fact of `need` occurs in `known` (a list membership test, so order and
      duplicates in either list do not matter). */
  predicate AllKnown(need: seq<Fact>, known: seq<Fact>)
  {
    forall f :: f in need ==> f in known
  }

  /** The two tests the engines apply to a rule while scanning the rule base.
      Forward chaining: the rule's number is not yet in the firing trace and its
      premises are all known. Backward chaining: the subgoal is among the rule's
      actions and its premises are all known. */
  datatype Criterion =
    | Fireable(facts: seq<Fact>, order: seq<nat>)
    | Concludes(subgoal: Fact, facts: seq<Fact>)

  predicate Holds(c: Criterion, r: Rule)
  {
    match c
    case Fireable(facts, order) => r.number !in order && AllKnown(r.premises, facts)
    case Concludes(g, facts) => g in r.actions && AllKnown(r.premises, facts)
  }

  predicate Increasing(ks: seq<nat>)
  {
    forall i, j :: 0 <= i < j < |ks| ==> ks[i] < ks[j]
  }

  predicate ValidIndices(rules: seq<Rule>, ks: seq<nat>)
  {
    forall i :: 0 <= i < |ks| ==> ks[i] < |rules|
  }

  /** The indices of the rules satisfying `c`, in store order: the list of
      "applicable rules" that one scan of the rule base collects. */
  function Select(rules: seq<Rule>, c: Criterion): (ks: seq<nat>)
    ensures ValidIndices(rules, ks)
  {
    if |rules| == 0 then []
    else
      var n := |rules| - 1;
      Select(rules[..n], c) + (if Holds(c, rules[n]) then [n] else [])
  }

  /** The scan collects exactly the indices of the rules that satisfy `c`. */
  lemma {:induction false} SelectSpec(rules: seq<Rule>, c: Criterion)
    ensures forall i :: 0 <= i < |Select(rules, c)| ==> Holds(c, rules[Select(rules, c)[i]])
    ensures forall k {:trigger Holds(c, rules[k])} :: 0 <= k < |rules| && Holds(c, rules[k]) ==> k in Select(rules, c)
    decreases |rules|
  {
    if |rules| > 0 {
      var n := |rules| - 1;
      SelectSpec(rules[..n], c);
      var front := Select(rules[..n], c);
      assert forall i :: 0 <= i < |front| ==> rules[..n][front[i]] == rules[front[i]];
      assert forall k :: 0 <= k < n ==> rules[..n][k] == rules[k];
    }
  }

  /** The scan visits the rules in store order, so the indices it collects
      increase strictly. */
  lemma {:induction false} SelectIncreasing(rules: seq<Rule>, c: Criterion)
    ensures Increasing(Select(rules, c))
    decreases |rules|
  {
    if |rules| > 0 {
      var n := |rules| - 1;
      SelectIncreasing(rules[..n], c);
      var front := Select(rules[..n], c);
      assert forall i :: 0 <= i < |front| ==> front[i] < n;
    }
  }

  /** The scan of a two-rule base. */
  lemma SelectTwo(r1: Rule, r2: Rule, c: Criterion)
    ensures Select([r1, r2], c) == (if Holds(c, r1) then [0] else []) + (if Holds(c, r2) then [1] else [])
  {
    assert [r1, r2][..1] == [r1];
    assert [r1][..0] == [];
    assert Select([r1], c) == (if Holds(c, r1) then [0] else []);
  }

  /** The numbers of the rules at indices `ks`, in the order of `ks`. */
  function Numbers(rules: seq<Rule>, ks: seq<nat>): (ns: seq<nat>)
    requires ValidIndices(rules, ks)
    ensures |ns| == |ks|
  {
    if |ks| == 0 then [] else Numbers(rules, ks[..|ks| - 1]) + [rules[ks[|ks| - 1]].number]
  }

  /** The `i`-th recorded number is the number of the `i`-th selected rule. */
  lemma {:induction false} NumbersAt(rules: seq<Rule>, ks: seq<nat>)
    requires ValidIndices(rules, ks)
    ensures forall i :: 0 <= i < |ks| ==> Numbers(rules, ks)[i] == rules[ks[i]].number
    decreases |ks|
  {
    if |ks| > 0 {
      NumbersAt(rules, ks[..|ks| - 1]);
    }
  }

  /** The actions of the rules at indices `ks`, concatenated in the order of `ks`. */
  function ActionsOf(rules: seq<Rule>, ks: seq<nat>): (fs: seq<Fact>)
    requires ValidIndices(rules, ks)
  {
    if |ks| == 0 then [] else rules[ks[0]].actions + ActionsOf(rules, ks[1..])
  }

  /** The premises of the rules at indices `ks`, concatenated in the order of `ks`. */
  function PremisesOf(rules: seq<Rule>, ks: seq<nat>): (fs: seq<Fact>)
    requires ValidIndices(rules, ks)
  {
    if |ks| == 0 then [] else PremisesOf(rules, ks[..|ks| - 1]) + rules[ks[|ks| - 1]].premises
  }

  /** Recording the rule at `k` first and then those at `ks` puts `k`'s number first. */
  lemma NumbersCons(rules: seq<Rule>, k: nat, ks: seq<nat>)
    requires k < |rules| && ValidIndices(rules, ks)
    ensures ValidIndices(rules, [k] + ks)
    ensures Numbers(rules, [k] + ks) == [rules[k].number] + Numbers(rules, ks)
  {
    assert ValidIndices(rules, [k] + ks);
    NumbersAt(rules, ks);
    NumbersAt(rules, [k] + ks);
    assert forall i :: 1 <= i <= |ks| ==> ([k] + ks)[i] == ks[i - 1];
  }

  /** Each fact in the concatenated premises is a premise of one of the rules. */
  lemma {:induction false} InPremisesOf(rules: seq<Rule>, ks: seq<nat>, f: Fact)
    requires ValidIndices(rules, ks) && f in PremisesOf(rules, ks)
    ensures exists i :: 0 <= i < |ks| && f in rules[ks[i]].premises
    decreases |ks|
  {
    var n := |ks| - 1;
    if f !in rules[ks[n]].premises {
      InPremisesOf(rules, ks[..n], f);
      var i :| 0 <= i < n && f in rules[ks[..n][i]].premises;
    }
  }

  /** A list that extends `x + y` continues, after `x`, with `y`. */
  lemma AppendSuffix<T>(x: seq<T>, y: seq<T>, z: seq<T>)
    requires x + y <= z
    ensures z[|x|..] == y + z[|x| + |y|..]
  {
    assert z[|x|..][..|y|] == y;
  }

  /** Elements in reverse order. */
  function Reverse<T>(s: seq<T>): (r: seq<T>)
    ensures |r| == |s|
    ensures forall i :: 0 <= i < |s| ==> r[i] == s[|s| - 1 - i]
  {
    if |s| == 0 then [] else [s[|s| - 1]] + Reverse(s[..|s| - 1])
  }

  predicate NoDup<T(==)>(s: seq<T>)
  {
    forall i, j :: 0 <= i < j < |s| ==> s[i] != s[j]
  }

  /** A new element in front of a duplicate-free list keeps it duplicate-free. */
  lemma NoDupCons<T>(x: T, s: seq<T>)
    requires NoDup(s) && x !in s
    ensures NoDup([x] + s)
  {
    forall i, j | 0 <= i < j < |[x] + s|
      ensures ([x] + s)[i] != ([x] + s)[j]
    {
      if i > 0 {
        assert ([x] + s)[i] == s[i - 1];
      }
      assert ([x] + s)[j] == s[j - 1];
    }
  }
}

=== FILE: scenarios.dfy ===
/** Small worked cases of the parser and of both engines, stated over symbolic
    facts so that they hold for every choice of fact names. */
module Scenarios {
  import opened Wrappers
  import opened Rules
  import opened RuleParser
  import opened ExpertSystem
  import opened Forward
  import opened Backward

  /** Three distinct facts `p`, `c`, `r` and the chain "IF p THEN c", "IF c THEN r". */
  predicate Distinct3(p: Fact, c: Fact, r: Fact)
  {
    p != c && c != r && p != r
  }

  function Chain(t1: string, t2: string, p: Fact, c: Fact, r: Fact): (rules: seq<Rule>)
  {
    [Rule(t1, 1, [p], [c]), Rule(t2, 2, [c], [r])]
  }

  /** A line with two " THEN " matches with the premise text running to the second. */
  lemma GreedyCaptures(d: string, p: string, q: string, a: string)
    requires |d| >= 1 && AllDigits(d)
    requires '\n' !in p && '\n' !in q && '\n' !in a && ' ' !in a
    ensures Captures("R" + d + IfTag + p + Then + q + Then + a, d, p + Then + q, a)
  {
    var premiseText := p + Then + q;
    assert "R" + d + IfTag + p + Then + q + Then + a == "R" + d + IfTag + premiseText + Then + a;
    SpaceFreeTail(a);
    assert '\n' !in Then;
  }

  /** The first group is greedy: with two " THEN " in a line, the premise text runs
      to the second one. */
  lemma ParseGreedyThen(line: string, d: string, p: string, q: string, a: string)
    requires line == "R" + d + IfTag + p + Then + q + Then + a
    requires |d| >= 1 && AllDigits(d)
    requires '\n' !in p && '\n' !in q && '\n' !in a && ' ' !in a
    requires ',' !in p && ',' !in q && ',' !in a
    ensures ParseRule(line) == Success(Rule(line, DecimalValue(d), [p + Then + q], [a]))
  {
    GreedyCaptures(d, p, q, a);
    ParseRuleComplete(line, d, p + Then + q, a);
    GreedySplits(p, q, a);
  }

  /** Neither group of the greedy case holds a comma. */
  lemma GreedySplits(p: string, q: string, a: string)
    requires ',' !in p && ',' !in q && ',' !in a
    ensures Split(p + Then + q) == [p + Then + q] && Split(a) == [a]
  {
    assert ',' !in Then;
    SplitNoComma(p + Then + q);
    SplitNoComma(a);
  }

  /** Items are split at every comma and keep their surrounding spaces. */
  lemma SplitUntrimmed(x: string, y: string)
    requires ',' !in x && ',' !in y
    ensures Split(x + ", " + y) == [x, " " + y]
  {
    assert x + ", " + y == x + "," + (" " + y);
    SplitAtComma(x, " " + y);
    SplitNoComma(x);
    assert ',' !in " " + y by {
      assert forall i :: 1 <= i < |" " + y| ==> (" " + y)[i] == y[i - 1];
    }
    SplitNoComma(" " + y);
  }

  /** One line that does not start with `R` aborts the whole rule base with that
      line's error, even after a good line. */
  lemma RuleBaseAborts(good: string, bad: string, d: string, p: string, a: string)
    requires Captures(good, d, p, a)
    requires |bad| == 0 || bad[0] != 'R'
    ensures ParseRuleBase([good, bad]) == Failure(InvalidRuleFormat(bad))
  {
    ParseRuleComplete(good, d, p, a);
    NotStartingWithR(bad);
    assert [good, bad][0] == good && [good, bad][1] == bad;
    assert ParsesBefore([good, bad], 1);
    FirstBadLine([good, bad], 1);
  }

  /** The chain run fires rule 1 from `[p]` and then rule 2. */
  lemma ChainRun(t1: string, t2: string, p: Fact, c: Fact, r: Fact)
    requires Distinct3(p, c, r)
    ensures ValidRun(Chain(t1, t2, p, c, r), [p], [], [0, 1])
  {
    var rules := Chain(t1, t2, p, c, r);
    assert [p] + rules[0].actions == [p, c] && [p, c] + rules[1].actions == [p, c, r];
    assert IsFirstFireable(rules, [p], [], 0);
    assert IsFirstFireable(rules, [p, c], [1], 1);
    assert [0, 1][1..] == [1] && [1][1..] == [];
    assert ValidRun(rules, [p, c, r], [1, 2], []);
    assert ValidRun(rules, [p, c], [1], [1]);
  }

  /** After the chain run nothing can fire. */
  lemma ChainEnd(t1: string, t2: string, p: Fact, c: Fact, r: Fact)
    ensures var rules := Chain(t1, t2, p, c, r);
      && ActionsOf(rules, [0, 1]) == [c, r]
      && Numbers(rules, [0, 1]) == [1, 2]
      && Quiescent(rules, [p] + [c, r], [] + [1, 2])
  {
    var rules := Chain(t1, t2, p, c, r);
    assert [0, 1][1..] == [1] && [1][1..] == [];
    assert ActionsOf(rules, [1]) == [r];
    assert [0, 1][..1] == [0];
    assert [p] + [c, r] == [p, c, r];
  }

  /** Forward chaining on the chain fires rule 1 then rule 2 and derives `c` then `r`. */
  lemma ForwardChain(t1: string, t2: string, p: Fact, c: Fact, r: Fact)
    requires Distinct3(p, c, r)
    ensures var rules := Chain(t1, t2, p, c, r);
      ForwardChaining(Engine(rules, [p], []))
      == Forwarded(Engine(rules, [p, c, r], [1, 2]), [p, c, r])
  {
    var e := Engine(Chain(t1, t2, p, c, r), [p], []);
    ChainRun(t1, t2, p, c, r);
    ChainEnd(t1, t2, p, c, r);
    RunIsForwardChaining(e, [0, 1]);
    assert ForwardChaining(e).engine.factBase == [p, c, r];
    assert ForwardChaining(e).engine.ruleOrder == [1, 2];
  }

  /** Backward chaining for `r` finds no rule concluding `r` whose premises are
      already known (`c` is not), so it records nothing and adds nothing. */
  lemma BackwardChainLast(t1: string, t2: string, p: Fact, c: Fact, r: Fact, fuel: nat)
    requires Distinct3(p, c, r) && fuel >= 1
    ensures var e := Engine(Chain(t1, t2, p, c, r), [p], []);
      BackwardSpec(e, r, fuel) == Finished(e)
  {
    var rules := Chain(t1, t2, p, c, r);
    var start := Search([r], [p], []);
    SelectTwo(rules[0], rules[1], Concludes(r, [p]));
    assert !Holds(Concludes(r, [p]), rules[0]);
    assert c in rules[1].premises && c !in [p];
    assert !Holds(Concludes(r, [p]), rules[1]);
    assert Select(rules, Concludes(r, [p])) == [];
    assert Pop(rules, start) == Search([], [p], []);
    assert Run(rules, start, fuel) == Run(rules, Search([], [p], []), fuel - 1);
  }

  /** Only rule 1 concludes `c` from `[p]`. */
  lemma ChainConcludersOfC(t1: string, t2: string, p: Fact, c: Fact, r: Fact)
    requires Distinct3(p, c, r)
    ensures Select(Chain(t1, t2, p, c, r), Concludes(c, [p])) == [0]
  {
    var rules := Chain(t1, t2, p, c, r);
    SelectTwo(rules[0], rules[1], Concludes(c, [p]));
    assert Holds(Concludes(c, [p]), rules[0]);
    assert !Holds(Concludes(c, [p]), rules[1]);
  }

  /** The first pop for `c` applies rule 1 and stacks its premise. */
  lemma ChainFirstPop(t1: string, t2: string, p: Fact, c: Fact, r: Fact)
    requires Distinct3(p, c, r)
    ensures Pop(Chain(t1, t2, p, c, r), Search([c], [p], [])) == Search([p], [p, c], [1])
  {
    var rules := Chain(t1, t2, p, c, r);
    ChainConcludersOfC(t1, t2, p, c, r);
    assert PremisesOf(rules, [0]) == [p];
    assert Numbers(rules, [0]) == [1];
  }

  /** The second pop finds `p` known and concluded by no rule. */
  lemma ChainSecondPop(t1: string, t2: string, p: Fact, c: Fact, r: Fact)
    requires Distinct3(p, c, r)
    ensures Pop(Chain(t1, t2, p, c, r), Search([p], [p, c], [1])) == Search([], [p, c], [1])
  {
    var rules := Chain(t1, t2, p, c, r);
    SelectTwo(rules[0], rules[1], Concludes(p, [p, c]));
    assert !Holds(Concludes(p, [p, c]), rules[0]);
    assert !Holds(Concludes(p, [p, c]), rules[1]);
  }

  /** Backward chaining for `c` applies rule 1, pushes its known premise `p`, and
      adds `c` to the facts. */
  lemma BackwardChainFirst(t1: string, t2: string, p: Fact, c: Fact, r: Fact, fuel: nat)
    requires Distinct3(p, c, r) && fuel >= 2
    ensures var rules := Chain(t1, t2, p, c, r);
      BackwardSpec(Engine(rules, [p], []), c, fuel) == Finished(Engine(rules, [p, c], [1]))
  {
    var rules := Chain(t1, t2, p, c, r);
    var start, second, last := Search([c], [p], []), Search([p], [p, c], [1]), Search([], [p, c], [1]);
    ChainFirstPop(t1, t2, p, c, r);
    ChainSecondPop(t1, t2, p, c, r);
    assert Run(rules, start, fuel) == Run(rules, second, fuel - 1);
    assert Run(rules, second, fuel - 1) == Run(rules, last, fuel - 2);
    assert Reverse([1]) == [1];
  }

  /** A rule number recorded once blocks every rule carrying it: of two rules
      numbered 1 with the same premise, only the first fires. */
  lemma SharedNumberBlocks(t1: string, t2: string, p: Fact, b: Fact, c: Fact)
    ensures var e := Engine([Rule(t1, 1, [p], [b]), Rule(t2, 1, [p], [c])], [p], []);
      ForwardChaining(e).engine.factBase == [p, b] && ForwardChaining(e).engine.ruleOrder == [1]
  {
    var rules := [Rule(t1, 1, [p], [b]), Rule(t2, 1, [p], [c])];
    var e := Engine(rules, [p], []);
    assert IsFirstFireable(rules, [p], [], 0);
    assert [0][1..] == [];
    assert ValidRun(rules, [p, b], [1], []);
    assert ValidRun(rules, [p], [], [0]);
    assert ActionsOf(rules, [0]) == [b];
    assert Numbers(rules, [0]) == [1];
    assert Quiescent(rules, [p, b], [1]);
    RunIsForwardChaining(e, [0]);
  }
}

=== FILE: wrappers.dfy ===
/** Failure-carrying result types shared by the parser and the engines. */
module Wrappers {

  /** A value that may be absent. */
  datatype Option<+T> = None | Some(value: T)

  /** Either a value or the error that prevented computing it. */
  datatype Result<+T, +E> = Success(value: T) | Failure(error: E)
}
